=== FILE: README.md ===
# Staking dApp back end and lock-time helpers, modelled in Dafny

This project models four parts of a token-staking application.

- **The block-range event crawler, in both live variants.**
  - The insert variant (`be/src/jobs/cronJobs.js`):
    - keeps a block cursor;
    - fetches five named staking events over `cursor+1 .. head`;
    - normalises each event into a record and inserts it;
    - moves the cursor only after every insert succeeded, and rethrows otherwise.
  - The upsert variant (`be/src/utils/cronJobs.js`):
    - scans one window of at most 1000 blocks;
    - upserts one document per transaction hash;
    - swallows errors, leaving the cursor unchanged.
- **The job runner** (`be/src/jobs/jobManager.js`):
  - the jobs table;
  - the status listing;
  - the idle → running → completed/failed transitions of `runJob`.
- **Request gating** in the Express back end:
  - the Joi query schemas and the `validate` middleware;
  - the two transaction handlers;
  - the router's middleware order;
  - the three admin checks `adminAuth`, `isAdmin` and `checkAdmin`, and the `/update-apr` route.
- **Two integer time helpers in the front end:**
  - `formatTime` and the one-second countdown in `StakingInfo.jsx`, with the effective-APR sum;
  - the five-minute lock test, the remaining-time display and the withdraw guard in `StakingForm.jsx`.

## How the model works

- **Failures.** Every crawler run is modelled as the sequence of I/O calls it makes, in program order. Examples are `getBlockNumber`, `getPastEvents`, `getBlock`, `save` and `findOneAndUpdate`. A fault argument `Option<nat>` names the first call that throws, so every way a run can fail is covered.
- **The chain.** It is a `Snapshot`: the head block number, the logs of each block, block timestamps and transactions by hash.
- **The stores.**
  - The insert variant's store is a multiset of records.
  - The upsert variant's store is a map from transaction hash to document.
- **Middleware.** A middleware or handler is a pure function to a `Decision`: `Next`, `NextError(status, message)` (a call to `next(err)`), or `Respond(status, body)`.
- **Outside inputs are parameters.** These are:
  - database lookups such as `User.isAdmin`;
  - contract transactions;
  - `Date.now()`;
  - environment variables such as `ADMIN_ADDRESS`.
- **Modules** follow the program:
  - `Common` and `Text` hold `Option`/`Result`, decimal text and ASCII lower-casing.
  - `Chain` holds the snapshot.
  - `InsertCrawler` and `UpsertCrawler` are the two crawler variants.
  - `JobManager` is the job runner.
  - `Http` holds request and response shapes.
  - `QuerySchema` holds the Joi subset and `validate.js`.
  - `TransactionController`, `ApiRoutes` and `AdminGates` are the route layer.
  - `StakingInfo` and `StakingForm` are the front-end helpers.

## How the two crawler variants behave

- **Chunking.** The insert variant scans the whole range `cursor+1..head` in one run. The upsert variant scans a single window of at most 1000 blocks per run, however far behind it is.
- **Initial cursor.** The insert variant seeds the cursor with the head at start-up, so the first crawl after start-up fetches only blocks after that head (`InsertCrawler.InitSkipsHistory`). A head reported below the cursor later can bring those blocks back into range (`InsertCrawler.CursorFollowsLaggingHead`). The upsert variant starts at 0 and scans from block 1.
- **Writing.** The insert variant calls `save` on a new document per event, with no lookup first. In the model's multiset store, a retry after a partial failure therefore holds a record twice (`InsertCrawler.RetryDuplicates`). The real collection declares `transactionHash` unique (be/src/models/Transaction.js:9), so there the second save would throw a duplicate-key error instead (see "Left out"). The upsert variant overwrites by hash alone, so the last write wins (`UpsertCrawler.LastWriteWins`).
- **Partial failure.** Neither variant undoes anything: both keep the documents written before the failing call.
- **Timestamps.** Both variants store block seconds × 1000.
- **Fetching.** The insert variant fetches five event names one at a time. The upsert variant fetches `allEvents` once.
- **Cursor direction.** Both variants set the cursor to the reported head or window end. When the head is reported behind the cursor, that lowers it.
- **Errors.** The insert variant logs and rethrows. The upsert variant logs and swallows. The HTTP handlers pass store and query errors to `next` with no status of their own.

Five places where the code evidently misses its own intent are listed under Findings.

## Model

| member | source | states |
|---|---|---|
| InsertCrawler.FromAddress | be/src/jobs/cronJobs.js:46-47 | `fromAddress` is the `user` argument when it is truthy, otherwise whatever `owner` is, including absent |
| InsertCrawler.Amount | be/src/jobs/cronJobs.js:50-54 | the amount is the first truthy value of `amount`, `reward`, `newBaseAPR`, else the string "0"; it is always truthy |
| InsertCrawler.Normalize | be/src/jobs/cronJobs.js:45-57 | a record takes its address and amount by the fallback rules; `toAddress` is the emitting contract; `eventType` is the fetched name; the timestamp is the containing block's seconds × 1000; the hash is the event's |
| InsertCrawler.NameCalls | be/src/jobs/cronJobs.js:34-41 | every `getPastEvents` of a run uses the same `fromBlock..toBlock` window, and no run re-reads the head inside `processEvents` |
| InsertCrawler.InitSkipsHistory | be/src/jobs/cronJobs.js:22-44 | with the cursor seeded by `Init` from the head at start-up, the first crawl fetches events only from the block after that head on, and reads no block at or before it |
| InsertCrawler.Run | be/src/jobs/cronJobs.js:64-77 | a run completes exactly when no call fails; on completion the cursor is the head and the store gained every saved record; on failure the cursor is unchanged and the store gained exactly the records saved before the failing call |
| InsertCrawler.Crawl | be/src/jobs/cronJobs.js:64-77 | one `crawlEvents`: on success the store gains exactly the normalised records of the five events over `cursor+1..head` and the cursor becomes the head; on any failure the cursor keeps its value and only a prefix of those records was inserted |
| InsertCrawler.SavedOfNameCalls | be/src/jobs/cronJobs.js:25-62 | the records `processEvents` saves are the normalised events of each name in turn, and the names it fetches are exactly the given list |
| InsertCrawler.SavedOfCrawl | be/src/jobs/cronJobs.js:66-70 | a run saves the records of the five event names over `cursor+1..head`, in fetch order |
| InsertCrawler.FetchPlan | be/src/jobs/cronJobs.js:26-41 | exactly Deposited, NFTDeposited, Withdrawn, RewardClaimed, APRUpdated are fetched, in that order; NFTMinted and NFTWithdrawn never are; every fetch covers `cursor+1..head` |
| InsertCrawler.IdleRunIsNoOp | be/src/jobs/cronJobs.js:66-71 | when the head has not moved, a fault-free run changes neither the cursor nor the store |
| InsertCrawler.NoRecordsInEmptyRange | be/src/jobs/cronJobs.js:66-70 | an inverted range yields no records |
| InsertCrawler.CursorMonotone | be/src/jobs/cronJobs.js:66-75 | with the head at or past the cursor, no run (successful or not) lowers the cursor |
| InsertCrawler.CursorFollowsLaggingHead | be/src/jobs/cronJobs.js:71 | a head reported below the cursor pulls the cursor back to it |
| InsertCrawler.PrefixThenAllDuplicates | be/src/jobs/cronJobs.js:59 | inserting a non-empty prefix and then the whole list counts the first record twice |
| InsertCrawler.RunRetryDuplicates | be/src/jobs/cronJobs.js:43-75 | for any call sequence, a call that throws after a save fails the run, and a fault-free retry completes with the first saved record stored at least twice |
| InsertCrawler.RetryDuplicates | be/src/jobs/cronJobs.js:43-75 | a crawl whose failing call comes after at least one insert fails; retried over the same chain, it completes and inserts that record a second time |
| UpsertCrawler.NextWindow | be/src/utils/cronJobs.js:12-20 | the window starts right after the cursor, never passes the head, spans at most 1000 blocks, and is a full 1000 unless it stops at the head |
| UpsertCrawler.Initial | be/src/utils/cronJobs.js:14-19 | the cursor starts at 0, so the first window starts at block 1 |
| UpsertCrawler.Document | be/src/utils/cronJobs.js:30-38 | a document's sender and receiver are the transaction's `from` and `to`; its amount is the transaction value; its timestamp is the transaction's block time × 1000; its hash is the event's |
| UpsertCrawler.Upsert | be/src/utils/cronJobs.js:31-41 | an upsert adds the hash as a key, stores the new document under it, and leaves every other hash untouched |
| UpsertCrawler.CrawlTransactions | be/src/utils/cronJobs.js:16-49 | a run that completes upserts every event's document of the window and sets the cursor to the window's end; a failing run ends quietly with the cursor unchanged and a prefix of those documents upserted |
| UpsertCrawler.WrittenOfCrawl | be/src/utils/cronJobs.js:24-42 | the documents a run writes are those of the window's events, in order |
| UpsertCrawler.UpsertAllKeys | be/src/utils/cronJobs.js:31-41 | after a run of upserts the keys are the old keys plus the written hashes, nothing more |
| UpsertCrawler.UpsertAllFrame | be/src/utils/cronJobs.js:31-41 | hashes not written keep their old document |
| UpsertCrawler.LastWriteWins | be/src/utils/cronJobs.js:31-41 | after re-processing a hash, its single record holds the latest values |
| UpsertCrawler.UpsertAllAppend | be/src/utils/cronJobs.js:29-42 | upserting `a` then `b` is upserting `a + b` |
| UpsertCrawler.UpsertAllAbsorbs | be/src/utils/cronJobs.js:31-41 | two stores that differ only at hashes a batch writes are equal after that batch |
| UpsertCrawler.PrefixReplayAbsorbed | be/src/utils/cronJobs.js:29-42 | replaying a whole batch after any prefix of it gives the same store as the batch alone |
| UpsertCrawler.UpsertAllIdempotent | be/src/utils/cronJobs.js:29-42 | upserting the same batch twice equals upserting it once |
| UpsertCrawler.UpsertAllWellKeyed | be/src/utils/cronJobs.js:31-41 | upserts keep each document stored under its own hash |
| UpsertCrawler.WindowBounds | be/src/utils/cronJobs.js:19-20 | a window has at most 1000 blocks, starts at `cursor+1`, ends at or before the head, and is full whenever the head is at least 1000 ahead |
| UpsertCrawler.CursorAdvance | be/src/utils/cronJobs.js:44 | one run advances the cursor by at most 1000, never lowers it while the head is not behind, and never moves it past the head |
| UpsertCrawler.RetryEqualsCleanRun | be/src/utils/cronJobs.js:29-48 | a run that fails part-way, followed by a fault-free retry over the same chain, leaves exactly the cursor and store one clean run leaves |
| UpsertCrawler.CrawlKeepsWellKeyed | be/src/utils/cronJobs.js:31-41 | every run, failing or not, keeps one document per hash stored under that hash |
| UpsertCrawler.CrawlTransactionsAsWritten | be/src/utils/cronJobs.js:16-47 | as written, a BigInt head makes `Math.min` throw, and a BigInt block timestamp makes `* 1000` throw before the first write; either way the run changes nothing; with Numbers it is `CrawlTransactions` |
| UpsertCrawler.AsWrittenNeverMoves | be/src/utils/cronJobs.js:16-47 | as written, with web3's default BigInt returns, any number of runs leaves the cursor and the store as they were |
| JobManager.GetJobStatus | be/src/jobs/jobManager.js:13-19 | the listing has one `{name, status, lastRun}` per registered job, in table order, and nothing else |
| JobManager.InitialListing | be/src/jobs/jobManager.js:3-11 | the only registered job is `crawlEvents`, named "Crawl Events", idle, never run |
| JobManager.RunJob | be/src/jobs/jobManager.js:21-39 | an unknown name fails with "Job k not found" and changes nothing; otherwise only that job changes; it is `running` while its body runs; success sets `completed`, `lastRun := now` and "Job k completed successfully"; failure sets `failed`, keeps `lastRun` and reports "Job k failed: m" |
| JobManager.UnknownNamesRejected | be/src/jobs/jobManager.js:22-24 | every name not in the table is rejected with "Job k not found" and the table is unchanged |
| JobManager.LastRunOnlyOnSuccess | be/src/jobs/jobManager.js:29-37 | a job's `lastRun` changes only when that job ran and succeeded, and then becomes `now` |
| JobManager.NoJobLeftRunning | be/src/jobs/jobManager.js:27-35 | after `runJob` returns, no job is left `running` |
| JobManager.StatusListingStable | be/src/jobs/jobManager.js:13-39 | running a job keeps the listing's length and names |
| JobManager.RunJobAsWritten | be/src/jobs/jobManager.js:22-30 | as written, a name inherited from `Object.prototype` passes the lookup and fails with "job.run is not a function"; every other name behaves as `RunJob` |
| JobManager.InheritedNameNotRejected | be/src/jobs/jobManager.js:22-37 | as written, `runJob("toString")` reports a run failure instead of "not found" |
| Http.QueryValue | be/src/controllers/transactionController.js:15 | a query key's value is present exactly when the query holds that key, and is one of its values |
| Http.Header | be/src/middleware/auth.js:7 | `req.header(name)` is present exactly when a header is stored under the lower-cased name, and is then that header's value |
| Http.HeaderIgnoresCase | be/src/middleware/auth.js:7 | two names that differ only in letter case find the same header |
| QuerySchema.CheckValue | be/src/controllers/transactionController.js:5-11 | a value passes a key's rule chain exactly when the rule accepts it; a failure names that key |
| QuerySchema.CheckField | be/src/controllers/transactionController.js:5-11 | one declared key passes exactly when it is absent and optional, or present and accepted |
| QuerySchema.CheckFields | be/src/controllers/transactionController.js:5-11 | the declared keys all pass exactly when no error is reported |
| QuerySchema.FirstUnknown | be/src/middleware/validate.js:5 | an undeclared key is reported exactly when the query holds one, and it is one of the query's keys |
| QuerySchema.Check | be/src/middleware/validate.js:5-6 | a query has no error exactly when every declared key passes and every key is declared |
| QuerySchema.Message | be/src/middleware/validate.js:7 | the first detail's message starts with the quoted key, as Joi's default messages do |
| QuerySchema.Validate | be/src/middleware/validate.js:3-13 | the middleware calls `next()` exactly when the query has no error, and otherwise `next(err)` with status 400 and the first detail's message |
| QuerySchema.ListKeysOfSchema | be/src/controllers/transactionController.js:5-11 | the transaction schema declares exactly page, limit, sortBy, sortOrder, search |
| QuerySchema.ListFieldsOk | be/src/controllers/transactionController.js:6-10 | page is an integer ≥ 1, limit an integer in 1..100, sortBy is timestamp or amount, sortOrder is ASC or DESC, search is any string including the empty one, each when present |
| QuerySchema.TransactionQueryAccepts | be/src/controllers/transactionController.js:5-11 | the transaction schema accepts a query exactly when it has only the five keys and each present one is within its bounds or enum |
| QuerySchema.AddressQueryAccepts | be/src/routes/api.js:9-11 | the address schema accepts a query exactly when it holds a well-formed `userAddress` and no other key |
| QuerySchema.UndeclaredKeyRefused | be/src/middleware/validate.js:5-10 | a query with any undeclared key is refused |
| QuerySchema.NumberExamples | be/src/controllers/transactionController.js:6-7 | "12", "+3", "2.0" and "-4" convert to integers; "1.5" is a number but not an integer; "x" and "" are not numbers |
| QuerySchema.IntegerValueOfNat | be/src/controllers/transactionController.js:6-7 | the decimal text of every natural number converts back to that number |
| QuerySchema.IntegerValueOfInt | be/src/controllers/transactionController.js:6-7 | the decimal text of every integer, with its minus sign, converts back to that integer |
| QuerySchema.IntegerValueOfPlus | be/src/controllers/transactionController.js:6-7 | a number written with an explicit `+` converts to the same number |
| QuerySchema.IntegerValueOfFraction | be/src/controllers/transactionController.js:6-7 | a number with a fraction part is an integer exactly when the fraction is all zeros, and then it is the whole part; otherwise it is a number but no integer |
| TransactionController.Reply | be/src/controllers/transactionController.js:16-20 | the handler answers 200 exactly when the store query returns, and otherwise passes the error to `next` without a status |
| TransactionController.GetAllTransactions | be/src/controllers/transactionController.js:13-21 | the store is queried exactly when the query validates, with the raw page, limit, sortBy, sortOrder and search strings; an invalid query is a 400 to `next` |
| TransactionController.GetUserTransactions | be/src/controllers/transactionController.js:23-32 | the store is queried exactly when the query validates, with the path address and the raw page, limit, sortBy and sortOrder strings; an invalid query is a 400 to `next` |
| TransactionController.HandlersAnswerOnlySuccess | be/src/controllers/transactionController.js:17-19 | neither handler answers an error itself; every direct answer is 200 |
| TransactionController.DefaultsNotForwarded | be/src/middleware/validate.js:5-12 | the schema's defaults are never written back: an empty query forwards no values |
| TransactionController.AppendSearch | be/src/controllers/transactionController.js:10 | adding a `search` term to a valid query keeps it valid and changes no other key |
| TransactionController.AsWrittenNeverAnswers | be/src/controllers/transactionController.js:2-30 | with the store methods missing from the imported model, a valid query ends in `next(error)` with the "is not a function" message and neither handler answers 200 |
| TransactionController.SearchForwardedOnlyByAll | be/src/controllers/transactionController.js:13-32 | a search term reaches the all-transactions store query and leaves the user store query unchanged |
| AdminGates.AdminAuth | be/src/middleware/adminAuth.js:3-19 | exactly one outcome per request: 401 "No address provided" without the header; `next()` exactly when the lookup says admin; 403 "Not authorized" when it says no; 500 with the message when it throws |
| AdminGates.AdminAuthSkipsLookupWithoutHeader | be/src/middleware/adminAuth.js:4-7 | without the header the lookup's result has no effect |
| AdminGates.IsAdmin | be/src/middleware/auth.js:6-12 | passes exactly when the header equals the configured address, case-sensitively; otherwise 403 "Access denied. Admin only." |
| AdminGates.IsAdminLetsHeaderlessThroughWhenUnset | be/src/middleware/auth.js:4-11 | with no admin address configured, a request without the header passes |
| AdminGates.CheckAdmin | be/src/routes/admin.js:7-13 | passes exactly when the lower-cased body address equals the lower-cased admin address; a mismatch is 403 "Not authorized"; a missing address on either side throws |
| AdminGates.CheckAdminIgnoresCase | be/src/routes/admin.js:9 | addresses equal up to case get the same decision |
| AdminGates.GatesDisagreeOnCase | be/src/routes/admin.js:9 | every address that differs from the configured one only in letter case passes `checkAdmin` and is refused by `isAdmin` |
| AdminGates.UpdateApr | be/src/routes/admin.js:15-26 | `updateAPR` is sent exactly when `checkAdmin` passes and `getAccounts` returns; a throw from either call answers 400 with its message; a sent call that returns answers "APR updated" |
| AdminGates.UpdateAprAsWritten | be/src/routes/admin.js:3-26 | as written, `stakingContract` is unbound, so nothing is ever sent: a refused gate answers as `checkAdmin` does, a throwing `getAccounts` answers 400 with its message, and otherwise the answer is 400 "Cannot read properties of undefined (reading 'methods')" |
| AdminGates.AsWrittenNeverUpdatesApr | be/src/routes/admin.js:3-26 | as written, the route answers as the intended route would with a contract call that throws that error, and never "APR updated" |
| AdminGates.OnlyAdminUpdatesApr | be/src/routes/admin.js:7-26 | the route answers "APR updated" exactly when the body address equals the configured one up to case and both awaited calls return |
| ApiRoutes.ListRoute | be/src/routes/api.js:13 | `adminAuth` runs first; the store is queried only for an admin with a valid query |
| ApiRoutes.UserRouteAsWritten | be/src/routes/api.js:14 | as written, the store is reached only if the query passes both the address schema and the transaction schema |
| ApiRoutes.UserRouteAsWrittenRejectsAll | be/src/routes/api.js:9-14 | as written, no request reaches the user handler; every request ends in a 400 |
| ApiRoutes.UserRoute | be/src/routes/api.js:14 | with the address schema applied to the path parameter, the store is queried exactly when the address is well-formed and the query validates |
| ApiRoutes.CheckAdminRouteAsWritten | be/src/routes/api.js:16-24 | as written, `/check-admin` always answers 500 |
| ApiRoutes.CheckAdminRoute | be/src/routes/api.js:16-24 | `{isAdmin}` with status 200 when the lookup returns, 500 `{error}` when it throws |
| ApiRoutes.CheckAdminAsWrittenIgnoresLookup | be/src/routes/api.js:19 | as written, an admin address gets the answer a thrown "User is not defined" gives, never `{isAdmin: true}` |
| StakingInfo.Split | fe/src/components/StakingInfo.jsx:77-80 | days, hours, minutes and seconds reassemble to the input, with hours < 24, minutes < 60 and seconds < 60 |
| StakingInfo.SplitUnique | fe/src/components/StakingInfo.jsx:77-80 | any normal split of a total is the one `formatTime` computes |
| StakingInfo.Clock | fe/src/components/StakingInfo.jsx:81 | the text starts with the day count's first digit and ends in "s" |
| StakingInfo.FormatTime | fe/src/components/StakingInfo.jsx:75-82 | "Unlocked" exactly when the seconds are at or below zero |
| StakingInfo.ReadClock | fe/src/components/StakingInfo.jsx:81 | the `<d>d <h>h <m>m <s>s` text reads back to the duration's total seconds |
| StakingInfo.ReadFormatTime | fe/src/components/StakingInfo.jsx:75-82 | the lock-time text reads back to the remaining seconds, clamped at zero |
| StakingInfo.Step | fe/src/components/StakingInfo.jsx:49-55 | one tick maps a positive value to one less and keeps ticking; it maps anything else to 0 and stops; the value never goes negative |
| StakingInfo.CountdownValue | fe/src/components/StakingInfo.jsx:48-56 | from a non-negative start, n ticks leave max(start − n, 0) |
| StakingInfo.CountdownShowsUnlocked | fe/src/components/StakingInfo.jsx:48-56 | the card shows "Unlocked" exactly once the countdown has ticked `start` times |
| StakingInfo.EffectiveApr | fe/src/components/StakingInfo.jsx:26-28 | the effective rate is never below the base rate, and equals it with no NFTs |
| StakingInfo.EachNftAddsBonus | fe/src/components/StakingInfo.jsx:26-28 | the effective rate is the base rate plus one bonus per staked NFT |
| StakingInfo.AprMonotone | fe/src/components/StakingInfo.jsx:26-28 | more staked NFTs never lower the rate |
| StakingForm.RemainingMs | fe/src/components/StakingForm.jsx:72-73 | time left is positive exactly when the lock test says locked, lies in 0..300000 once the deposit is past, and adds up with the elapsed time to the lock period while locked |
| StakingForm.RemainingShrinks | fe/src/components/StakingForm.jsx:72-73 | time left never grows as the clock advances, and a lock once lifted stays lifted |
| StakingForm.Display | fe/src/components/StakingForm.jsx:74-75 | the shown seconds are below 60; minutes and seconds undershoot the time left by less than one second; within the lock period minutes are at most 5, with 0 seconds at 5 |
| StakingForm.DisplayUnique | fe/src/components/StakingForm.jsx:74-75 | the shown minutes and seconds are the only such split of the time left |
| StakingForm.LockStatus | fe/src/components/StakingForm.jsx:69-79 | "Unlocked" exactly when the lock flag is clear |
| StakingForm.ReadLockStatusShowsRemaining | fe/src/components/StakingForm.jsx:69-79 | while locked, the status line reads back to exactly the minutes and seconds `Display` derives from the time still to wait; unlocked, it shows no lock time |
| StakingForm.HandleWithdraw | fe/src/components/StakingForm.jsx:54-67 | while locked, no contract call is made and the lock toast is shown; otherwise `withdraw(claimOnly)` is sent once and the toast reports its outcome |
| StakingForm.NoWithdrawWhileLocked | fe/src/components/StakingForm.jsx:54-58 | with the flag from a refresh at `now`, withdraw reaches the contract exactly when at least 300000 ms have passed since the deposit |

## Left out

- Scheduling is not modelled: `node-schedule` cron timers, the 30 s and 10 s refresh intervals and `setInterval`. Each model is one run, one tick or one render.
- Concurrent runs of a crawler are not modelled. The insert variant's `crawlEvents` is both scheduled (be/src/jobs/cronJobs.js:82) and run on demand through `runJob` (be/src/jobs/jobManager.js:8), so two runs can overlap and interleave their saves and cursor writes. Each model is one run from a settled state.
- Logging (`console.log`/`console.error`) is left out; it has no effect on state.
- `fromWei`, `formatEther`, `toNumber() / 100` and `Date`/`toLocaleString` are left out because they are floating-point or locale formatting. Amounts are kept as whole wei, and the APR in basis points.
- The store query the transaction handlers forward never succeeds as written. be/src/controllers/transactionController.js:2 requires `../models/transaction`, but the file is `Transaction.js`, which fails to load on a case-sensitive file system. Where it does load, it exports a bare Mongoose model with no `getAll` or `getByUser`, so lines 16 and 27 throw "Transaction.getAll is not a function" (or `getByUser`) and every valid query ends in `next(error)`. The handlers take the store's outcome as a parameter, and `TransactionController.AsWrittenNeverAnswers` shows that with this outcome neither answers 200. The store methods themselves are not part of this model.
- The stored `Date` objects are left out; a timestamp is kept as milliseconds since the epoch.
- The Mongoose schema's checks are left out (be/src/models/Transaction.js:4-10). The store is an abstract insert or upsert that may fail at any call.
  - The insert variant writes `fromAddress`, `toAddress` and `eventType`, but the schema requires `senderAddress` and `receiverAddress`. A real `save` of such a document would fail validation.
  - The schema declares `transactionHash` unique. Against the real collection, a second save of the same hash would throw a duplicate-key error rather than store a second copy. `InsertCrawler.RetryDuplicates` and `InsertCrawler.RunRetryDuplicates` describe the model's multiset store only.
- Running a job before `initializeContracts` has resolved is left out. That needs the timers above.
- The upsert variant's arithmetic on what web3 returns is modelled two ways. `UpsertCrawler.CrawlTransactions` works on whole numbers. `UpsertCrawler.CrawlTransactionsAsWritten` keeps the BigInts that web3 4.x returns by default: `Math.min` at be/src/utils/cronJobs.js:20 and `timestamp * 1000` at be/src/utils/cronJobs.js:37 each throw on them (see Findings).
- Joi's number conversion is simplified. Surrounding whitespace, exponents and the unsafe-integer check are not modelled.
- Express's array values for a repeated query key are not modelled. The first occurrence is the value.
- `String.prototype.toLowerCase` is modelled for ASCII letters only.
- Joi reports the first undeclared key in `Object.keys` order, which lists integer-like keys such as "7" before the others. The model reports it in query-string order instead, so for `?foo=1&7=2` only the 400 message differs: "foo" where Joi names "7".
- The node is assumed to answer `[]` for an inverted block range. A node that rejects a `fromBlock` past `toBlock` is a failing `getPastEvents` call, which the fault argument covers: the insert variant's idle run then fails and `runJob` marks the job failed, with the state still unchanged.
- Which gates guard live requests is not modelled. be/src/app.js:26-27 and be/src/server.js:27-28 mount only the transaction and job routers. So the routes in be/src/routes/api.js and be/src/routes/admin.js serve no request in either entry point, and neither do the `adminAuth` and `checkAdmin` gates they use; they are modelled as written. The mounted routers (be/src/routes/transactionRoutes.js:4 and be/src/routes/jobRoutes.js:4) take `isAdmin` from `middleware/authMiddleware`, which is not part of this model; `AdminGates.IsAdmin` models the `isAdmin` of be/src/middleware/auth.js.
- AdminGates.UpdateApr: models the route with the contract bound, and `send` stands for how the transaction ends. As written, be/src/routes/admin.js:3 takes `stakingContract` from be/src/services/web3Service.js, which exports only `getEvents`, `stakingInstance` and `web3` (lines 21-25), so no transaction is ever sent (`AdminGates.UpdateAprAsWritten`, see Findings). The deployed contract's method is also named `updateBaseAPR`, not `updateAPR`. With a contract bound, that mismatch is a `send` that throws.
- AdminGates.CheckAdmin: the body's `address` is modelled as a string or absent. A JSON `null` or a number throws a different TypeError in the source ("Cannot read properties of null" or "address.toLowerCase is not a function"), which is not modelled; each still reaches `next` as an error without a status.
- `handleStake` and the amount form are left out, because they are a UI handler outside the lock logic.
- React rendering is left out; only the values the components compute are modelled.
- InsertCrawler.CursorMonotone: stated only when the reported head is not behind the cursor. If the head is behind, the code moves the cursor back to it (shown by `InsertCrawler.CursorFollowsLaggingHead`).
- UpsertCrawler.CursorAdvance: the never-lowers part is stated only when the head is not behind the cursor. If it is behind, the window ends at the head and the cursor moves back.

## Findings

| source | as written | input that shows it | evidently intended | confidence | as-written member | corrected member |
|---|---|---|---|---|---|---|
| be/src/routes/api.js:14 | `validate(addressSchema)` checks `req.query`, so the route needs `userAddress` in the query. The controller's own schema then refuses that undeclared key. | `GET /transactions/0x00…aa?userAddress=0x00…aa`, or any other request: each ends in a 400 | apply the address schema to the path parameter | not executed | ApiRoutes.UserRouteAsWritten | ApiRoutes.UserRoute |
| be/src/routes/api.js:19 | `User` is not imported, so `User.isAdmin` throws a ReferenceError | `GET /check-admin/<an admin address>` answers 500 "User is not defined" | answer `{isAdmin}` from the lookup | not executed | ApiRoutes.CheckAdminRouteAsWritten | ApiRoutes.CheckAdminRoute |
| be/src/jobs/jobManager.js:22 | `!jobs[jobName]` is false for names inherited from `Object.prototype` | `runJob("toString")` fails with "Job toString failed: job.run is not a function" | reject it with "Job toString not found" | not executed | JobManager.RunJobAsWritten | JobManager.RunJob |
| be/src/utils/cronJobs.js:20 | `Math.min(fromBlock + BLOCKS_PER_BATCH - 1, latestBlock)` receives the BigInt that web3 4.x's `getBlockNumber` returns; converting it to a Number throws, and line 37's `timestamp * 1000` would throw as well, on the BigInt block timestamp | any run with the default web3 return format: the error is caught at line 46 and nothing changes, run after run | convert the head and the timestamp with `Number(...)`, as be/src/jobs/cronJobs.js:55 does | not executed; medium, depends on the installed web3 major version | UpsertCrawler.CrawlTransactionsAsWritten | UpsertCrawler.CrawlTransactions |
| be/src/routes/admin.js:3 | `stakingContract` is destructured from the web3 service, which does not export it, so `stakingContract.methods` throws inside the `try` | `POST /update-apr` from the admin address, with `getAccounts` returning: 400 "Cannot read properties of undefined (reading 'methods')" | import the exported `stakingInstance` and send the contract's rate update | not executed | AdminGates.UpdateAprAsWritten | AdminGates.UpdateApr |

=== FILE: admin_gates.dfy ===
/**
 * The three admin checks, each with its own rule:
 * `adminAuth` (be/src/middleware/adminAuth.js) asks the user table about the
 * `x-user-address` header; `isAdmin` (be/src/middleware/auth.js) compares the
 * `X-User-Address` header with the configured address exactly; `checkAdmin`
 * (be/src/routes/admin.js) compares the body's `address` with the configured
 * address ignoring case. The user-table lookup and the environment's
 * `ADMIN_ADDRESS` are parameters.
 */
module AdminGates {
  import opened Common
  import opened Text
  import opened Http

  const AddressHeader: string := "x-user-address"

  /** Whether the request carries a non-empty address header (`!address` is false). */
  predicate HasAddress(h: Headers) {
    AddressHeader in h && h[AddressHeader] != ""
  }

  /**
   * `adminAuth`: `lookup` is what `User.isAdmin(address)` would resolve to or
   * throw; it is consulted only when the header is present.
   */
  function AdminAuth(h: Headers, lookup: Result<bool>): (d: Decision)
    ensures !HasAddress(h) ==> d == Respond(401, ErrorJson("No address provided"))
    ensures d.Next? <==> HasAddress(h) && lookup == Ok(true)
    ensures HasAddress(h) && lookup == Ok(false) ==> d == Respond(403, ErrorJson("Not authorized"))
    ensures HasAddress(h) && lookup.Err? ==> d == Respond(500, ErrorJson(lookup.message))
  {
    if !HasAddress(h) then Respond(401, ErrorJson("No address provided"))
    else match lookup
      case Ok(true) => Next
      case Ok(false) => Respond(403, ErrorJson("Not authorized"))
      case Err(m) => Respond(500, ErrorJson(m))
  }

  /** Without an address header the lookup's answer cannot matter: no lookup is made. */
  lemma AdminAuthSkipsLookupWithoutHeader(h: Headers, l1: Result<bool>, l2: Result<bool>)
    requires !HasAddress(h)
    ensures AdminAuth(h, l1) == AdminAuth(h, l2)
  {
  }

  /**
   * `isAdmin`: `admin` is `ADMIN_ADDRESS` as read once at module load
   * (absent when unset). Strict comparison: case matters, and an absent
   * header equals an absent configuration.
   */
  function IsAdmin(admin: Option<string>, h: Headers): (d: Decision)
    ensures d.Next? <==> Header(h, "X-User-Address") == admin
    ensures !d.Next? ==> d == Respond(403, MessageJson("Access denied. Admin only."))
  {
    if Header(h, "X-User-Address") != admin then Respond(403, MessageJson("Access denied. Admin only."))
    else Next
  }

  /** With `ADMIN_ADDRESS` unset, a request without the header passes. */
  lemma IsAdminLetsHeaderlessThroughWhenUnset(h: Headers)
    requires AddressHeader !in h
    ensures IsAdmin(None, h) == Next
  {
    assert Lower("X-User-Address") == AddressHeader;
  }

  /** The message of the TypeError `undefined.toLowerCase()` throws. */
  const ReadLowerOfUndefined: string := "Cannot read properties of undefined (reading 'toLowerCase')"

  /**
   * `checkAdmin`: `address` is `req.body.address`. A missing address or an
   * unset `ADMIN_ADDRESS` makes `toLowerCase` throw, which Express passes on
   * as an error without a status.
   */
  function CheckAdmin(admin: Option<string>, address: Option<string>): (d: Decision)
    ensures address.None? || admin.None? ==> d == NextError(None, ReadLowerOfUndefined)
    ensures address.Some? && admin.Some? ==> (d.Next? <==> Lower(address.value) == Lower(admin.value))
    ensures address.Some? && admin.Some? && !d.Next? ==> d == Respond(403, Text("Not authorized"))
  {
    if address.None? || admin.None? then NextError(None, ReadLowerOfUndefined)
    else if Lower(address.value) != Lower(admin.value) then Respond(403, Text("Not authorized"))
    else Next
  }

  /** `checkAdmin` cannot tell two addresses apart that differ only in letter case. */
  lemma CheckAdminIgnoresCase(admin: string, a: string, b: string)
    requires Lower(a) == Lower(b)
    ensures CheckAdmin(Some(admin), Some(a)) == CheckAdmin(Some(admin), Some(b))
  {
  }

  /**
   * Any address that differs from the configured one only in letter case
   * passes `checkAdmin` but is refused by `isAdmin`.
   */
  lemma GatesDisagreeOnCase(admin: string, a: string)
    requires Lower(a) == Lower(admin) && a != admin
    ensures CheckAdmin(Some(admin), Some(a)) == Next
    ensures IsAdmin(Some(admin), map[AddressHeader := a]) == Respond(403, MessageJson("Access denied. Admin only."))
  {
    assert Lower("X-User-Address") == AddressHeader;
  }

  /** `POST /update-apr`: whether `updateAPR(newAPR)` was sent, and the reply. */
  datatype AprUpdate = AprUpdate(sent: bool, decision: Decision)

  /**
   * `checkAdmin`, then the handler: `accounts` is how `getAccounts()` completes
   * and `send` how the `updateAPR` transaction completes once it is sent.
   * Either throwing is caught and answered 400 with its message.
   */
  function UpdateApr(admin: Option<string>, address: Option<string>, accounts: Completion, send: Completion)
    : (r: AprUpdate)
    ensures r.sent <==> CheckAdmin(admin, address).Next? && accounts.Success?
    ensures !CheckAdmin(admin, address).Next? ==> r.decision == CheckAdmin(admin, address)
    ensures CheckAdmin(admin, address).Next? && accounts.Thrown? ==> r.decision == Respond(400, Text(accounts.message))
    ensures r.sent && send.Success? ==> r.decision == Respond(200, Text("APR updated"))
    ensures r.sent && send.Thrown? ==> r.decision == Respond(400, Text(send.message))
  {
    var gate := CheckAdmin(admin, address);
    if !gate.Next? then AprUpdate(false, gate)
    else match accounts
      case Thrown(m) => AprUpdate(false, Respond(400, Text(m)))
      case Success =>
        match send
        case Success => AprUpdate(true, Respond(200, Text("APR updated")))
        case Thrown(m) => AprUpdate(true, Respond(400, Text(m)))
  }

  /** Only the configured admin, in any letter case, can get the rate changed. */
  lemma OnlyAdminUpdatesApr(admin: string, address: Option<string>, accounts: Completion, send: Completion)
    ensures UpdateApr(Some(admin), address, accounts, send).decision == Respond(200, Text("APR updated"))
      <==> address.Some? && Lower(address.value) == Lower(admin) && accounts.Success? && send.Success?
  {
  }

  /** The message of the TypeError `undefined.methods` throws. */
  const ReadMethodsOfUndefined: string := "Cannot read properties of undefined (reading 'methods')"

  /**
   * `POST /update-apr` as written: the route imports `stakingContract`, which
   * the web3 service does not export, so once `getAccounts` returns, reading
   * `stakingContract.methods` throws inside the `try` and nothing is sent.
   */
  function UpdateAprAsWritten(admin: Option<string>, address: Option<string>, accounts: Completion): (r: AprUpdate)
    ensures !r.sent
    ensures !CheckAdmin(admin, address).Next? ==> r.decision == CheckAdmin(admin, address)
    ensures CheckAdmin(admin, address).Next? && accounts.Thrown? ==> r.decision == Respond(400, Text(accounts.message))
    ensures CheckAdmin(admin, address).Next? && accounts.Success? ==>
      r.decision == Respond(400, Text(ReadMethodsOfUndefined))
  {
    var gate := CheckAdmin(admin, address);
    if !gate.Next? then AprUpdate(false, gate)
    else match accounts
      case Thrown(m) => AprUpdate(false, Respond(400, Text(m)))
      case Success => AprUpdate(false, Respond(400, Text(ReadMethodsOfUndefined)))
  }

  /**
   * As written, no request gets "APR updated": the route answers as the
   * intended one would if the contract call threw the unbound-import error.
   */
  lemma AsWrittenNeverUpdatesApr(admin: Option<string>, address: Option<string>, accounts: Completion)
    ensures UpdateAprAsWritten(admin, address, accounts).decision
      == UpdateApr(admin, address, accounts, Thrown(ReadMethodsOfUndefined)).decision
    ensures UpdateAprAsWritten(admin, address, accounts).decision != Respond(200, Text("APR updated"))
  {
  }
}

=== FILE: api_routes.dfy ===
/**
 * The API router (be/src/routes/api.js): the middleware order of its two
 * transaction routes and the `/check-admin` route.
 */
module ApiRoutes {
  import opened Common
  import opened Http
  import opened QuerySchema
  import opened AdminGates
  import opened TransactionController

  /** `GET /transactions`: `adminAuth`, then the exported all-transactions chain. */
  function ListRoute(h: Headers, lookup: Result<bool>, q: Query, answer: Completion): (r: Handled)
    ensures r.call.Some? ==> AdminAuth(h, lookup).Next? && ValidListQuery(q)
    ensures !AdminAuth(h, lookup).Next? ==> r == Handled(None, AdminAuth(h, lookup))
    ensures AdminAuth(h, lookup).Next? ==> r == GetAllTransactions(q, answer)
  {
    var gate := AdminAuth(h, lookup);
    if !gate.Next? then Handled(None, gate) else GetAllTransactions(q, answer)
  }

  /**
   * `GET /transactions/:userAddress` as written: `validate(addressSchema)`
   * checks `req.query`, not the path parameter, so it wants `userAddress`
   * in the query, which the controller's own schema then refuses.
   */
  function UserRouteAsWritten(address: string, q: Query, answer: Completion): (r: Handled)
    ensures r.call.Some? ==> Check(AddressQuery, q).None? && ValidListQuery(q)
  {
    var gate := Validate(AddressQuery, q);
    if !gate.Next? then Handled(None, gate) else GetUserTransactions(address, q, answer)
  }

  /** As written, no request reaches the user handler: every one ends in a 400 error. */
  lemma UserRouteAsWrittenRejectsAll(address: string, q: Query, answer: Completion)
    ensures UserRouteAsWritten(address, q, answer).call.None?
    ensures UserRouteAsWritten(address, q, answer).decision.NextError?
    ensures UserRouteAsWritten(address, q, answer).decision.errorStatus == Some(400)
  {
    AddressQueryAccepts(q);
    TransactionQueryAccepts(q);
    if Check(AddressQuery, q).None? {
      assert QueryValue(q, "userAddress").Some?;
      var i :| 0 <= i < |q| && q[i].key == "userAddress";
      assert "userAddress" !in ListKeys;
      assert !ValidListQuery(q);
    }
  }

  /**
   * The route as evidently intended: the address schema applied to the path
   * parameter, then the controller chain.
   */
  function UserRoute(address: string, q: Query, answer: Completion): (r: Handled)
    ensures r.call.Some? <==> IsAddress(address) && ValidListQuery(q)
    ensures r.call.Some? ==> r.call.value == GetByUser(address, QueryValue(q, "page"), QueryValue(q, "limit"),
                                                       QueryValue(q, "sortBy"), QueryValue(q, "sortOrder"))
    ensures !IsAddress(address) ==> r.decision.NextError? && r.decision.errorStatus == Some(400)
    ensures IsAddress(address) && ValidListQuery(q) ==> r.decision == Reply(answer)
  {
    AddressQueryAccepts([Param("userAddress", address)]);
    var gate := Validate(AddressQuery, [Param("userAddress", address)]);
    if !gate.Next? then Handled(None, gate) else GetUserTransactions(address, q, answer)
  }

  /** `GET /check-admin/:address` as written: `User` is not in scope, so the lookup throws a ReferenceError. */
  function CheckAdminRouteAsWritten(address: string): (d: Decision)
    ensures d.Respond? && d.status == 500
  {
    Respond(500, ErrorJson("User is not defined"))
  }

  /** `/check-admin` as intended: `lookup` is what `User.isAdmin(address)` resolves to or throws. */
  function CheckAdminRoute(address: string, lookup: Result<bool>): (d: Decision)
    ensures lookup.Ok? ==> d == Respond(200, IsAdminJson(lookup.value))
    ensures lookup.Err? ==> d == Respond(500, ErrorJson(lookup.message))
  {
    match lookup
    case Ok(b) => Respond(200, IsAdminJson(b))
    case Err(m) => Respond(500, ErrorJson(m))
  }

  /** As written, an address the table marks as admin still gets a 500 instead of `{isAdmin: true}`. */
  lemma CheckAdminAsWrittenIgnoresLookup(address: string)
    ensures CheckAdminRouteAsWritten(address) != CheckAdminRoute(address, Ok(true))
    ensures CheckAdminRouteAsWritten(address) == CheckAdminRoute(address, Err("User is not defined"))
  {
  }
}

=== FILE: chain.dfy ===
/**
 * A snapshot of the staking contract's history as an RPC node reports it
 * during one crawl run: the head block number, the logs each block holds,
 * each block's timestamp and each transaction's envelope.
 */
module Chain {
  import opened Common

  /**
   * A decoded event argument. Web3 decodes addresses to strings and
   * unsigned integers to numbers; the distinction matters because
   * JavaScript's `||` treats both `""` and `0` as absent.
   */
  datatype Value = Str(s: string) | Num(n: nat)

  /** JavaScript truthiness of a decoded argument. */
  predicate Truthy(v: Value) {
    match v
    case Str(s) => s != ""
    case Num(n) => n != 0
  }

  /** An argument lookup in `event.returnValues`; a missing key is `undefined`. */
  function Arg(args: map<string, Value>, key: string): Option<Value> {
    if key in args then Some(args[key]) else None
  }

  /** JavaScript truthiness of an optional argument (`undefined` is falsy). */
  predicate Present(v: Option<Value>) {
    v.Some? && Truthy(v.value)
  }

  /** A log entry as stored in a block. */
  datatype Log = Log(name: string, args: map<string, Value>, txHash: string)

  /** A log entry as `getPastEvents` returns it: the log plus its block number. */
  datatype Event = Event(name: string, args: map<string, Value>, txHash: string, blockNumber: nat)

  /** The envelope `getTransaction` returns (`from`, `to`, `value`); `to` is null for a contract creation. */
  datatype Tx = Tx(sender: string, recipient: Option<string>, value: nat, blockNumber: nat)

  datatype Snapshot = Snapshot(
    head: nat,
    logs: nat -> seq<Log>,
    timestamp: nat -> nat,
    tx: string -> Tx)

  /** The logs of block `b`, each tagged with `b`, in log order. */
  function BlockEvents(logs: seq<Log>, b: nat): (evs: seq<Event>)
    ensures |evs| == |logs|
    ensures forall i :: 0 <= i < |evs| ==>
      evs[i] == Event(logs[i].name, logs[i].args, logs[i].txHash, b)
  {
    if |logs| == 0 then []
    else [Event(logs[0].name, logs[0].args, logs[0].txHash, b)] + BlockEvents(logs[1..], b)
  }

  /**
   * All events of blocks `lo..hi` inclusive, in block order then log order
   * (`getPastEvents("allEvents", ...)`). An inverted range yields nothing.
   */
  function EventsInRange(c: Snapshot, lo: nat, hi: int): (evs: seq<Event>)
    ensures forall e :: e in evs ==> lo <= e.blockNumber <= hi
    decreases hi - lo
  {
    if hi < lo then [] else EventsInRange(c, lo, hi - 1) + BlockEvents(c.logs(hi), hi)
  }

  /** The events named `name`, keeping their order (`getPastEvents(name, ...)`). */
  function Named(evs: seq<Event>, name: string): (r: seq<Event>)
    ensures forall e :: e in r ==> e in evs && e.name == name
    ensures forall e :: e in evs && e.name == name ==> e in r
  {
    if |evs| == 0 then []
    else (if evs[0].name == name then [evs[0]] else []) + Named(evs[1..], name)
  }

  function PastEvents(c: Snapshot, name: string, lo: nat, hi: int): seq<Event> {
    Named(EventsInRange(c, lo, hi), name)
  }
}

=== FILE: common.dfy ===
/** Failure-carrying wrappers shared by every module of the model. */
module Common {

  /** A value that may be absent (JavaScript `undefined`). */
  datatype Option<+T> = None | Some(value: T)

  /** The outcome of a call that can throw: a value, or the thrown error's message. */
  datatype Result<+T> = Ok(value: T) | Err(message: string)

  /** The outcome of an awaited call whose value is not used: it returns, or throws a message. */
  datatype Completion = Success | Thrown(message: string)

  /** Whether `p` is a prefix of `s`. */
  predicate IsPrefix<T(==)>(p: seq<T>, s: seq<T>) {
    |p| <= |s| && s[..|p|] == p
  }
}

=== FILE: http.dfy ===
/**
 * The shapes of an Express request and of a middleware's decision: call
 * `next()`, call `next(err)`, or answer the request.
 */
module Http {
  import opened Common
  import opened Text

  /** A response body: a JSON object with one field, plain text, or the handler's data. */
  datatype Body =
    | ErrorJson(error: string)
    | MessageJson(message: string)
    | IsAdminJson(isAdmin: bool)
    | Text(text: string)
    | Payload

  /**
   * What a middleware or handler does with a request. `NextError` is
   * `next(err)`; `errorStatus` is the error's `statusCode`, if it has one.
   */
  datatype Decision =
    | Next
    | NextError(errorStatus: Option<nat>, message: string)
    | Respond(status: nat, body: Body)

  /** Running `rest` only when `d` called plain `next()`. */
  function Then(d: Decision, rest: Decision): (r: Decision)
    ensures d.Next? ==> r == rest
    ensures !d.Next? ==> r == d
  {
    if d.Next? then rest else d
  }

  /** One `key=value` pair of the query string, in the order written. */
  datatype Param = Param(key: string, value: string)

  type Query = seq<Param>

  /** `req.query[key]`: the first value given for `key`. */
  function QueryValue(q: Query, key: string): (r: Option<string>)
    ensures r.Some? <==> exists i :: 0 <= i < |q| && q[i].key == key
    ensures r.Some? ==> exists i :: 0 <= i < |q| && q[i].key == key && q[i].value == r.value
  {
    if |q| == 0 then None
    else if q[0].key == key then Some(q[0].value)
    else QueryValue(q[1..], key)
  }

  /** Request headers under the lower-case names Node gives them. */
  type Headers = map<string, string>

  /** `req.header(name)`: the name is matched without regard to case. */
  function Header(h: Headers, name: string): (r: Option<string>)
    ensures r.Some? <==> Lower(name) in h
    ensures r.Some? ==> r.value == h[Lower(name)]
  {
    if Lower(name) in h then Some(h[Lower(name)]) else None
  }

  /** Two names that differ only in letter case find the same header. */
  lemma HeaderIgnoresCase(h: Headers, a: string, b: string)
    requires Lower(a) == Lower(b)
    ensures Header(h, a) == Header(h, b)
  {
  }
}

=== FILE: insert_crawler.dfy ===
/**
 * The cursor-based event crawler that inserts one record per event
 * (be/src/jobs/cronJobs.js). One run reads the head, fetches five named
 * events over `cursor+1 .. head`, saves a record per event, and only then
 * moves the cursor to the head. Any failing call aborts the run, keeps the
 * records already saved and leaves the cursor where it was.
 */
module InsertCrawler {
  import opened Common
  import opened Chain

  /** The event names fetched, in fetch order; `NFTMinted` and `NFTWithdrawn` are not among them. */
  const EventNames: seq<string> := ["Deposited", "NFTDeposited", "Withdrawn", "RewardClaimed", "APRUpdated"]

  /** The document handed to `Transaction.save`. */
  datatype Record = Record(
    fromAddress: Option<Value>,
    toAddress: string,
    eventType: string,
    amount: Value,
    timestamp: int,
    transactionHash: string)

  /** `user || owner`: the user argument when truthy, otherwise whatever `owner` is. */
  function FromAddress(args: map<string, Value>): (a: Option<Value>)
    ensures Present(Arg(args, "user")) ==> a == Arg(args, "user")
    ensures !Present(Arg(args, "user")) ==> a == Arg(args, "owner")
  {
    if Present(Arg(args, "user")) then Arg(args, "user") else Arg(args, "owner")
  }

  /** `amount || reward || newBaseAPR || "0"`: the first truthy of the three, else the string "0". */
  function Amount(args: map<string, Value>): (v: Value)
    ensures Truthy(v)
    ensures Present(Arg(args, "amount")) ==> v == args["amount"]
    ensures !Present(Arg(args, "amount")) && Present(Arg(args, "reward")) ==> v == args["reward"]
    ensures !Present(Arg(args, "amount")) && !Present(Arg(args, "reward")) && Present(Arg(args, "newBaseAPR"))
      ==> v == args["newBaseAPR"]
    ensures !Present(Arg(args, "amount")) && !Present(Arg(args, "reward")) && !Present(Arg(args, "newBaseAPR"))
      ==> v == Str("0")
  {
    if Present(Arg(args, "amount")) then args["amount"]
    else if Present(Arg(args, "reward")) then args["reward"]
    else if Present(Arg(args, "newBaseAPR")) then args["newBaseAPR"]
    else Str("0")
  }

  /** The record built for event `e` fetched under `name` from `contract`, in block time `blockTime` seconds. */
  function Normalize(e: Event, name: string, blockTime: nat, contract: string): (r: Record)
    ensures r.fromAddress == FromAddress(e.args)
    ensures r.toAddress == contract && r.eventType == name
    ensures r.amount == Amount(e.args) && Truthy(r.amount)
    ensures r.timestamp == blockTime * 1000
    ensures r.transactionHash == e.txHash
  {
    Record(FromAddress(e.args), contract, name, Amount(e.args), blockTime * 1000, e.txHash)
  }

  /** The I/O calls of a run, in program order. */
  datatype Call =
    | GetBlockNumber
    | GetPastEvents(name: string, lo: nat, hi: int)
    | GetBlock(number: nat)
    | Save(record: Record)

  /** The records normalised from `evs`, in order: the reference for what a run saves. */
  function NormalizeAll(c: Snapshot, contract: string, name: string, evs: seq<Event>): (rs: seq<Record>)
    ensures |rs| == |evs|
    ensures forall i :: 0 <= i < |evs| ==>
      rs[i] == Normalize(evs[i], name, c.timestamp(evs[i].blockNumber), contract)
  {
    seq(|evs|, i requires 0 <= i < |evs| => Normalize(evs[i], name, c.timestamp(evs[i].blockNumber), contract))
  }

  /** Every record a run over `lo..hi` should save, grouped by event name in `names` order. */
  function Records(c: Snapshot, contract: string, names: seq<string>, lo: nat, hi: int): seq<Record>
  {
    if |names| == 0 then []
    else NormalizeAll(c, contract, names[0], PastEvents(c, names[0], lo, hi)) + Records(c, contract, names[1..], lo, hi)
  }

  /** The inner loop over one name's events: fetch the block, then save the record. */
  function EventCalls(c: Snapshot, contract: string, name: string, evs: seq<Event>): (calls: seq<Call>)
    ensures forall call :: call in calls ==> !call.GetPastEvents? && !call.GetBlockNumber?
  {
    if |evs| == 0 then []
    else
      [GetBlock(evs[0].blockNumber), Save(Normalize(evs[0], name, c.timestamp(evs[0].blockNumber), contract))]
      + EventCalls(c, contract, name, evs[1..])
  }

  /** The outer loop of `processEvents`: one `getPastEvents` per name, then that name's events. */
  function NameCalls(c: Snapshot, contract: string, names: seq<string>, lo: nat, hi: int): (calls: seq<Call>)
    ensures forall call :: call in calls && call.GetPastEvents? ==> call.lo == lo && call.hi == hi
    ensures GetBlockNumber !in calls
  {
    if |names| == 0 then []
    else
      [GetPastEvents(names[0], lo, hi)]
      + EventCalls(c, contract, names[0], PastEvents(c, names[0], lo, hi))
      + NameCalls(c, contract, names[1..], lo, hi)
  }

  /** The calls of one `crawlEvents` run from `cursor`. */
  function CrawlCalls(c: Snapshot, contract: string, cursor: nat): seq<Call> {
    [GetBlockNumber] + NameCalls(c, contract, EventNames, cursor + 1, c.head)
  }

  /** The records of the `Save` calls among `calls`, in order. */
  function Saved(calls: seq<Call>): seq<Record> {
    if |calls| == 0 then []
    else (if calls[0].Save? then [calls[0].record] else []) + Saved(calls[1..])
  }

  /** The names passed to `getPastEvents`, in order. */
  function Fetched(calls: seq<Call>): seq<string> {
    if |calls| == 0 then []
    else (if calls[0].GetPastEvents? then [calls[0].name] else []) + Fetched(calls[1..])
  }

  /** The crawler's module state: the block cursor (`latestBlock`) and the store's records. */
  datatype State = State(cursor: nat, store: multiset<Record>)

  /** A run either completes, or fails at a call and rethrows that call's error. */
  datatype Outcome = Done(state: State) | Failed(state: State, at: Call)

  /** Whether the run gets past every call: `fault` is the index of the first call that throws. */
  predicate Completes(calls: seq<Call>, fault: Option<nat>) {
    fault.None? || fault.value >= |calls|
  }

  /** `initializeContracts`: the cursor is seeded with the head at start-up. */
  function Init(head: nat, store: multiset<Record>): (s: State)
    ensures s.cursor == head && s.store == store
  {
    State(head, store)
  }

  /**
   * Executing `calls` in order until the call with index `fault` throws:
   * every `Save` before it lands in the store, and the cursor becomes
   * `head` only when every call succeeded.
   */
  function Run(s: State, calls: seq<Call>, head: nat, fault: Option<nat>): (o: Outcome)
    ensures o.Done? <==> Completes(calls, fault)
    ensures o.Done? ==> o.state == State(head, s.store + multiset(Saved(calls)))
    ensures o.Failed? ==> o.state.cursor == s.cursor
    ensures o.Failed? ==> exists p :: IsPrefix(p, Saved(calls)) && o.state.store == s.store + multiset(p)
    ensures o.Failed? ==> o.state.store == s.store + multiset(Saved(calls[..fault.value]))
  {
    if Completes(calls, fault) then
      Done(State(head, s.store + multiset(Saved(calls))))
    else
      var k := fault.value;
      SavedPrefix(calls, k);
      Failed(State(s.cursor, s.store + multiset(Saved(calls[..k]))), calls[k])
  }

  /**
   * One `crawlEvents` run against snapshot `c` for the staking contract at
   * `contract`; the first call with index `fault` throws.
   */
  function Crawl(s: State, c: Snapshot, contract: string, fault: Option<nat>): (o: Outcome)
    ensures o.Done? <==> Completes(CrawlCalls(c, contract, s.cursor), fault)
    ensures o.Done? ==> o.state.cursor == c.head
    ensures o.Done? ==> o.state.store == s.store + multiset(Records(c, contract, EventNames, s.cursor + 1, c.head))
    ensures o.Failed? ==> o.state.cursor == s.cursor
    ensures o.Failed? ==> exists p :: IsPrefix(p, Records(c, contract, EventNames, s.cursor + 1, c.head))
                                  && o.state.store == s.store + multiset(p)
  {
    SavedOfCrawl(c, contract, s.cursor);
    Run(s, CrawlCalls(c, contract, s.cursor), c.head, fault)
  }

  lemma {:induction false} SavedAppend(a: seq<Call>, b: seq<Call>)
    ensures Saved(a + b) == Saved(a) + Saved(b)
    decreases |a|
  {
    if |a| == 0 {
      assert a + b == b;
    } else {
      assert (a + b)[0] == a[0];
      assert (a + b)[1..] == a[1..] + b;
      SavedAppend(a[1..], b);
    }
  }

  lemma {:induction false} FetchedAppend(a: seq<Call>, b: seq<Call>)
    ensures Fetched(a + b) == Fetched(a) + Fetched(b)
    decreases |a|
  {
    if |a| == 0 {
      assert a + b == b;
    } else {
      assert (a + b)[0] == a[0];
      assert (a + b)[1..] == a[1..] + b;
      FetchedAppend(a[1..], b);
    }
  }

  /** The records saved before any failure point form a prefix of the full run's records. */
  lemma SavedPrefix(calls: seq<Call>, k: nat)
    requires k <= |calls|
    ensures IsPrefix(Saved(calls[..k]), Saved(calls))
  {
    assert calls == calls[..k] + calls[k..];
    SavedAppend(calls[..k], calls[k..]);
  }

  /** The inner loop saves exactly the normalised events, in order. */
  lemma {:induction false} SavedOfEventCalls(c: Snapshot, contract: string, name: string, evs: seq<Event>)
    ensures Saved(EventCalls(c, contract, name, evs)) == NormalizeAll(c, contract, name, evs)
    ensures Fetched(EventCalls(c, contract, name, evs)) == []
    decreases |evs|
  {
    if |evs| > 0 {
      var head := [GetBlock(evs[0].blockNumber), Save(Normalize(evs[0], name, c.timestamp(evs[0].blockNumber), contract))];
      var tail := EventCalls(c, contract, name, evs[1..]);
      SavedOfEventCalls(c, contract, name, evs[1..]);
      SavedAppend(head, tail);
      FetchedAppend(head, tail);
      assert NormalizeAll(c, contract, name, evs) == [Normalize(evs[0], name, c.timestamp(evs[0].blockNumber), contract)]
        + NormalizeAll(c, contract, name, evs[1..]);
    }
  }

  /** The outer loop saves exactly `Records` and fetches exactly `names`, in order. */
  lemma {:induction false} SavedOfNameCalls(c: Snapshot, contract: string, names: seq<string>, lo: nat, hi: int)
    ensures Saved(NameCalls(c, contract, names, lo, hi)) == Records(c, contract, names, lo, hi)
    ensures Fetched(NameCalls(c, contract, names, lo, hi)) == names
    decreases |names|
  {
    if |names| > 0 {
      var fetch := [GetPastEvents(names[0], lo, hi)];
      var inner := EventCalls(c, contract, names[0], PastEvents(c, names[0], lo, hi));
      var rest := NameCalls(c, contract, names[1..], lo, hi);
      SavedOfEventCalls(c, contract, names[0], PastEvents(c, names[0], lo, hi));
      SavedOfNameCalls(c, contract, names[1..], lo, hi);
      SavedAppend(fetch + inner, rest);
      SavedAppend(fetch, inner);
      FetchedAppend(fetch + inner, rest);
      FetchedAppend(fetch, inner);
    }
  }

  lemma SavedOfCrawl(c: Snapshot, contract: string, cursor: nat)
    ensures Saved(CrawlCalls(c, contract, cursor)) == Records(c, contract, EventNames, cursor + 1, c.head)
    ensures Fetched(CrawlCalls(c, contract, cursor)) == EventNames
  {
    var tail := NameCalls(c, contract, EventNames, cursor + 1, c.head);
    SavedOfNameCalls(c, contract, EventNames, cursor + 1, c.head);
    SavedAppend([GetBlockNumber], tail);
    FetchedAppend([GetBlockNumber], tail);
  }

  /**
   * A run fetches the five names in order, each over `cursor+1 .. head`,
   * and never fetches `NFTMinted` or `NFTWithdrawn`.
   */
  lemma FetchPlan(c: Snapshot, contract: string, cursor: nat)
    ensures Fetched(CrawlCalls(c, contract, cursor)) == ["Deposited", "NFTDeposited", "Withdrawn", "RewardClaimed", "APRUpdated"]
    ensures "NFTMinted" !in Fetched(CrawlCalls(c, contract, cursor))
    ensures "NFTWithdrawn" !in Fetched(CrawlCalls(c, contract, cursor))
    ensures forall call :: call in CrawlCalls(c, contract, cursor) && call.GetPastEvents? ==>
      call.lo == cursor + 1 && call.hi == c.head
  {
    SavedOfCrawl(c, contract, cursor);
  }

  /** With the head where the cursor is, a run saves nothing and keeps the cursor. */
  lemma {:induction false} IdleRunIsNoOp(s: State, c: Snapshot, contract: string)
    requires c.head == s.cursor
    ensures Crawl(s, c, contract, None) == Done(s)
  {
    NoRecordsInEmptyRange(c, contract, EventNames, s.cursor + 1, c.head);
  }

  lemma {:induction false} NoRecordsInEmptyRange(c: Snapshot, contract: string, names: seq<string>, lo: nat, hi: int)
    requires hi < lo
    ensures Records(c, contract, names, lo, hi) == []
    decreases |names|
  {
    if |names| > 0 {
      NoRecordsInEmptyRange(c, contract, names[1..], lo, hi);
    }
  }

  /** A completed run never lowers the cursor while the head has not fallen behind it. */
  lemma CursorMonotone(s: State, c: Snapshot, contract: string, fault: Option<nat>)
    requires c.head >= s.cursor
    ensures Crawl(s, c, contract, fault).state.cursor >= s.cursor
  {
  }

  /** The cursor is assigned the reported head unconditionally, so a lagging node moves it backwards. */
  lemma CursorFollowsLaggingHead(s: State, c: Snapshot, contract: string)
    requires c.head < s.cursor
    ensures Crawl(s, c, contract, None).state.cursor < s.cursor
  {
  }

  /** The inner loop reads only the blocks its events come from. */
  lemma {:induction false} EventCallsBlocks(c: Snapshot, contract: string, name: string, evs: seq<Event>, lo: nat, hi: int)
    requires forall e :: e in evs ==> lo <= e.blockNumber <= hi
    ensures forall call :: call in EventCalls(c, contract, name, evs) && call.GetBlock? ==> lo <= call.number <= hi
    decreases |evs|
  {
    if |evs| > 0 {
      assert evs[0] in evs;
      assert forall e :: e in evs[1..] ==> e in evs;
      EventCallsBlocks(c, contract, name, evs[1..], lo, hi);
    }
  }

  /** The outer loop reads only blocks inside `lo..hi`. */
  lemma {:induction false} NameCallsBlocks(c: Snapshot, contract: string, names: seq<string>, lo: nat, hi: int)
    ensures forall call :: call in NameCalls(c, contract, names, lo, hi) && call.GetBlock? ==> lo <= call.number <= hi
    decreases |names|
  {
    if |names| > 0 {
      EventCallsBlocks(c, contract, names[0], PastEvents(c, names[0], lo, hi), lo, hi);
      NameCallsBlocks(c, contract, names[1..], lo, hi);
    }
  }

  /**
   * Seeding the cursor with the head at start-up skips history: the first
   * crawl fetches events only from the block after that head on, and reads
   * no block at or before it.
   */
  lemma InitSkipsHistory(c: Snapshot, contract: string, head: nat, store: multiset<Record>)
    ensures forall call :: call in CrawlCalls(c, contract, Init(head, store).cursor) && call.GetPastEvents? ==>
      call.lo == head + 1
    ensures forall call :: call in CrawlCalls(c, contract, Init(head, store).cursor) && call.GetBlock? ==>
      head < call.number <= c.head
  {
    NameCallsBlocks(c, contract, EventNames, head + 1, c.head);
  }

  /** Saving a non-empty prefix of `all` and then all of `all` counts the first record twice. */
  lemma PrefixThenAllDuplicates(base: multiset<Record>, p: seq<Record>, all: seq<Record>)
    requires IsPrefix(p, all) && |p| > 0
    ensures (base + multiset(p) + multiset(all))[all[0]] >= base[all[0]] + 2
  {
    assert p[0] == all[0];
    assert all[0] in multiset(p);
    assert all[0] in multiset(all);
  }

  /**
   * For any sequence of calls: when the call with index `k` throws after a
   * save, the run fails, and a retry without failure completes and holds the
   * first saved record twice.
   */
  lemma RunRetryDuplicates(s: State, calls: seq<Call>, head: nat, k: nat)
    requires k < |calls| && Saved(calls[..k]) != []
    ensures var o := Run(s, calls, head, Some(k));
      var r := Run(o.state, calls, head, None);
      o.Failed? && r.Done? && r.state.cursor == head
      && r.state.store[Saved(calls)[0]] >= s.store[Saved(calls)[0]] + 2
  {
    var p := Saved(calls[..k]);
    SavedPrefix(calls, k);
    PrefixThenAllDuplicates(s.store, p, Saved(calls));
  }

  /**
   * A crawl whose call with index `k` throws after at least one record was
   * inserted fails; retried over the same snapshot without failure, it
   * completes and inserts that record a second time.
   */
  lemma RetryDuplicates(s: State, c: Snapshot, contract: string, k: nat)
    requires k < |CrawlCalls(c, contract, s.cursor)| && Saved(CrawlCalls(c, contract, s.cursor)[..k]) != []
    ensures var o := Crawl(s, c, contract, Some(k));
      var r := Crawl(o.state, c, contract, None);
      o.Failed? && r.Done? && r.state.cursor == c.head
      && exists rec :: r.state.store[rec] >= s.store[rec] + 2
  {
    RunRetryDuplicates(s, CrawlCalls(c, contract, s.cursor), c.head, k);
  }
}

=== FILE: job_manager.dfy ===
/**
 * The job table and runner (be/src/jobs/jobManager.js). A job moves from its
 * current status to `running` while its body executes, then to `completed`
 * (stamping `lastRun`) or `failed` (keeping `lastRun`). Unknown names are
 * rejected. The body of the one registered job is the insert crawler's run;
 * here its outcome is a parameter.
 */
module JobManager {
  import opened Common

  datatype Status = Idle | Running | Completed | Failed

  /** A job's record: its display name, status and the time of its last successful run. */
  datatype Job = Job(name: string, status: Status, lastRun: Option<nat>)

  /** One own property of the `jobs` object: key and job, in key insertion order. */
  datatype Entry = Entry(key: string, job: Job)

  type Table = seq<Entry>

  /** The table the module starts with: only `crawlEvents`, idle, never run. */
  const InitialTable: Table := [Entry("crawlEvents", Job("Crawl Events", Idle, None))]

  /** One entry of `getJobStatus`'s answer. */
  datatype JobStatus = JobStatus(name: string, status: Status, lastRun: Option<nat>)

  /** `getJobStatus`: one entry per registered job, in table order. */
  function GetJobStatus(t: Table): (r: seq<JobStatus>)
    ensures |r| == |t|
    ensures forall i :: 0 <= i < |t| ==>
      r[i].name == t[i].job.name && r[i].status == t[i].job.status && r[i].lastRun == t[i].job.lastRun
  {
    if |t| == 0 then [] else [JobStatus(t[0].job.name, t[0].job.status, t[0].job.lastRun)] + GetJobStatus(t[1..])
  }

  /** The position of `key` among the table's own keys. */
  function IndexOf(t: Table, key: string): (r: Option<nat>)
    ensures r.Some? ==> r.value < |t| && t[r.value].key == key
    ensures r.Some? ==> forall j :: 0 <= j < r.value ==> t[j].key != key
    ensures r.None? ==> forall j :: 0 <= j < |t| ==> t[j].key != key
  {
    if |t| == 0 then None
    else if t[0].key == key then Some(0)
    else match IndexOf(t[1..], key)
      case None => None
      case Some(i) => Some(i + 1)
  }

  /** The table with entry `i`'s job given status `st` and last run `last`. */
  function Update(t: Table, i: nat, st: Status, last: Option<nat>): Table
    requires i < |t|
  {
    t[i := Entry(t[i].key, Job(t[i].job.name, st, last))]
  }

  /** A call of `runJob`: the table while the body runs, the table after, and the reply or thrown message. */
  datatype JobRun = JobRun(during: Table, after: Table, reply: Result<string>)

  /** The entries other than `i` are equal, and every entry keeps its key and name. */
  predicate OnlyChanged(t: Table, u: Table, i: nat) {
    |u| == |t|
    && (forall j :: 0 <= j < |t| ==> u[j].key == t[j].key && u[j].job.name == t[j].job.name)
    && (forall j :: 0 <= j < |t| && j != i ==> u[j] == t[j])
  }

  /**
   * `runJob(key)` where the job's body returns (`body == Success`) or throws,
   * at time `now`.
   */
  function RunJob(t: Table, key: string, body: Completion, now: nat): (r: JobRun)
    ensures IndexOf(t, key).None? ==>
      r.during == t && r.after == t && r.reply == Err("Job " + key + " not found")
    ensures IndexOf(t, key).Some? ==>
      var i := IndexOf(t, key).value;
      OnlyChanged(t, r.during, i) && OnlyChanged(t, r.after, i)
      && r.during[i].job.status == Running
      && r.during[i].job.lastRun == t[i].job.lastRun
    ensures r.reply.Ok? <==> IndexOf(t, key).Some? && body.Success?
    ensures IndexOf(t, key).Some? && body.Success? ==>
      var i := IndexOf(t, key).value;
      r.after[i].job.status == Completed && r.after[i].job.lastRun == Some(now)
      && r.reply == Ok("Job " + key + " completed successfully")
    ensures IndexOf(t, key).Some? && body.Thrown? ==>
      var i := IndexOf(t, key).value;
      r.after[i].job.status == Failed && r.after[i].job.lastRun == t[i].job.lastRun
      && r.reply == Err("Job " + key + " failed: " + body.message)
  {
    match IndexOf(t, key)
    case None => JobRun(t, t, Err("Job " + key + " not found"))
    case Some(i) =>
      var during := Update(t, i, Running, t[i].job.lastRun);
      match body
      case Success => JobRun(during, Update(t, i, Completed, Some(now)), Ok("Job " + key + " completed successfully"))
      case Thrown(m) => JobRun(during, Update(t, i, Failed, t[i].job.lastRun), Err("Job " + key + " failed: " + m))
  }

  /** The names every plain JavaScript object inherits from `Object.prototype`. */
  const PrototypeKeys: set<string> := {
    "constructor", "hasOwnProperty", "isPrototypeOf", "propertyIsEnumerable",
    "toLocaleString", "toString", "valueOf", "__proto__",
    "__defineGetter__", "__defineSetter__", "__lookupGetter__", "__lookupSetter__" }

  /**
   * `runJob` as written: `!jobs[jobName]` is false for inherited names too,
   * so such a name is "found"; its `run` is undefined, calling it throws a
   * TypeError, and the reply is the failure message for that error. The
   * status writes land on the inherited value, not on a table entry.
   */
  function RunJobAsWritten(t: Table, key: string, body: Completion, now: nat): (r: JobRun)
    ensures IndexOf(t, key).Some? || key !in PrototypeKeys ==> r == RunJob(t, key, body, now)
    ensures IndexOf(t, key).None? && key in PrototypeKeys ==>
      r.after == t && r.reply == Err("Job " + key + " failed: job.run is not a function")
  {
    if IndexOf(t, key).None? && key in PrototypeKeys then
      JobRun(t, t, Err("Job " + key + " failed: job.run is not a function"))
    else RunJob(t, key, body, now)
  }

  /** As written, `toString` is not rejected as unknown: the reply is a run failure. */
  lemma InheritedNameNotRejected(body: Completion, now: nat)
    ensures RunJobAsWritten(InitialTable, "toString", body, now).reply
      == Err("Job " + "toString" + " failed: job.run is not a function")
    ensures RunJobAsWritten(InitialTable, "toString", body, now).reply
      != Err("Job toString not found")
  {
    assert IndexOf(InitialTable, "toString").None?;
    assert "toString" in PrototypeKeys;
    var m := "Job " + "toString" + " failed: job.run is not a function";
    assert m[13] == 'f' && "Job toString not found"[13] == 'n';
  }

  /** Every name that is not a registered key, inherited names included, is rejected and changes nothing. */
  lemma UnknownNamesRejected(t: Table, key: string, body: Completion, now: nat)
    requires forall j :: 0 <= j < |t| ==> t[j].key != key
    ensures RunJob(t, key, body, now) == JobRun(t, t, Err("Job " + key + " not found"))
  {
  }

  /** `lastRun` moves only on a successful run of a registered job, and then to `now`. */
  lemma LastRunOnlyOnSuccess(t: Table, key: string, body: Completion, now: nat, j: nat)
    requires j < |t|
    requires RunJob(t, key, body, now).after[j].job.lastRun != t[j].job.lastRun
    ensures body.Success? && IndexOf(t, key) == Some(j)
    ensures RunJob(t, key, body, now).after[j].job.lastRun == Some(now)
  {
  }

  /** No job is left `running` once `runJob` has returned or thrown, if none was before. */
  lemma NoJobLeftRunning(t: Table, key: string, body: Completion, now: nat)
    requires forall j :: 0 <= j < |t| ==> t[j].job.status != Running
    ensures var after := RunJob(t, key, body, now).after;
      forall j :: 0 <= j < |after| ==> after[j].job.status != Running
  {
  }

  /** The status listing keeps its shape across runs: same length, same names, in order. */
  lemma StatusListingStable(t: Table, key: string, body: Completion, now: nat)
    ensures var before := GetJobStatus(t);
      var after := GetJobStatus(RunJob(t, key, body, now).after);
      |after| == |before| && forall j :: 0 <= j < |before| ==> after[j].name == before[j].name
  {
  }

  /** At start-up the listing is the single idle, never-run crawl job. */
  lemma InitialListing()
    ensures GetJobStatus(InitialTable) == [JobStatus("Crawl Events", Idle, None)]
  {
  }
}

=== FILE: query_schema.dfy ===
/**
 * The subset of Joi object validation the request schemas use, and the
 * `validate(schema)` middleware (be/src/middleware/validate.js) that applies
 * a schema to `req.query` only. Joi stops at the first error: the declared
 * keys are checked in schema order, each with its rules in declared order,
 * and only then are undeclared keys refused.
 */
module QuerySchema {
  import opened Common
  import opened Text
  import opened Http

  /** One Joi error, by its type and the key it concerns. */
  datatype Violation =
    | Required(key: string)
    | NotANumber(key: string)
    | NotAnInteger(key: string)
    | BelowMin(key: string, min: int)
    | AboveMax(key: string, max: int)
    | NotOneOf(key: string, valids: seq<string>)
    | EmptyString(key: string)
    | WrongLength(key: string, length: nat)
    | PatternMismatch(key: string, value: string)
    | NotAllowed(key: string)

  /** The rule chain declared for one key. */
  datatype Rule =
    | Integer(min: int, max: Option<int>)     // number().integer().min(..)[.max(..)]
    | OneOf(valids: seq<string>)              // string().valid(..)
    | AnyString(allowEmpty: bool)             // string()[.allow('')]
    | HexAddress                              // string().length(42).regex(/^0x[a-fA-F0-9]{40}$/)

  datatype Field = Field(key: string, rule: Rule, required: bool)

  type Schema = seq<Field>

  /** `transactionQuerySchema`; the defaults it declares never reach the handlers. */
  const TransactionQuery: Schema := [
    Field("page", Integer(1, None), false),
    Field("limit", Integer(1, Some(100)), false),
    Field("sortBy", OneOf(["timestamp", "amount"]), false),
    Field("sortOrder", OneOf(["ASC", "DESC"]), false),
    Field("search", AnyString(true), false)]

  /** `addressSchema`. */
  const AddressQuery: Schema := [Field("userAddress", HexAddress, true)]

  // ---- numbers, as Joi converts a query string to a number ----

  /** A decimal literal: sign, whole part, and whether the fraction is all zeros. */
  datatype Number = Number(negative: bool, whole: nat, fractionZero: bool)

  function FirstDot(s: string): (r: Option<nat>)
    ensures r.Some? ==> r.value < |s| && s[r.value] == '.' && forall j :: 0 <= j < r.value ==> s[j] != '.'
    ensures r.None? ==> forall j :: 0 <= j < |s| ==> s[j] != '.'
  {
    if |s| == 0 then None
    else if s[0] == '.' then Some(0)
    else match FirstDot(s[1..])
      case None => None
      case Some(i) => Some(i + 1)
  }

  predicate AllZeros(s: string) {
    forall i :: 0 <= i < |s| ==> s[i] == '0'
  }

  /** Digits, optionally with one `.` and more digits; at least one digit overall. */
  function Unsigned(s: string): Option<(nat, bool)> {
    match FirstDot(s)
    case None => if |s| > 0 && AllDigits(s) then Some((DigitsValue(s), true)) else None
    case Some(i) =>
      var w := s[..i];
      var f := s[i + 1..];
      if AllDigits(w) && AllDigits(f) && |w| + |f| > 0 then Some((DigitsValue(w), AllZeros(f))) else None
  }

  function ParseNumber(s: string): Option<Number> {
    if |s| > 0 && (s[0] == '+' || s[0] == '-') then
      match Unsigned(s[1..])
      case None => None
      case Some(p) => Some(Number(s[0] == '-', p.0, p.1))
    else
      match Unsigned(s)
      case None => None
      case Some(p) => Some(Number(false, p.0, p.1))
  }

  /** The integer a query value denotes, if it denotes one. */
  function IntegerValue(s: string): Option<int> {
    match ParseNumber(s)
    case Some(n) =>
      var value: int := if n.negative then 0 - (n.whole as int) else n.whole as int;
      if n.fractionZero then Some(value) else None
    case None => None
  }

  // ---- what each rule accepts, stated without regard to check order ----

  predicate IsHex(c: char) {
    IsDigit(c) || 'a' <= c <= 'f' || 'A' <= c <= 'F'
  }

  /** `^0x[a-fA-F0-9]{40}$`. */
  predicate IsAddress(v: string) {
    |v| == 42 && v[0] == '0' && v[1] == 'x' && forall i :: 2 <= i < 42 ==> IsHex(v[i])
  }

  predicate Accepts(rule: Rule, v: string) {
    match rule
    case Integer(lo, hi) => IntegerValue(v).Some? && lo <= IntegerValue(v).value
                            && (hi.None? || IntegerValue(v).value <= hi.value)
    case OneOf(valids) => v in valids
    case AnyString(allowEmpty) => allowEmpty || v != ""
    case HexAddress => IsAddress(v)
  }

  function KeyOf(v: Violation): string {
    v.key
  }

  /** The first error Joi reports for value `v` of key `key`, in rule order. */
  function CheckValue(key: string, rule: Rule, v: string): (r: Option<Violation>)
    ensures r.None? <==> Accepts(rule, v)
    ensures r.Some? ==> KeyOf(r.value) == key
  {
    match rule
    case Integer(lo, hi) =>
      if ParseNumber(v).None? then Some(NotANumber(key))
      else if IntegerValue(v).None? then Some(NotAnInteger(key))
      else if IntegerValue(v).value < lo then Some(BelowMin(key, lo))
      else if hi.Some? && IntegerValue(v).value > hi.value then Some(AboveMax(key, hi.value))
      else None
    case OneOf(valids) => if v in valids then None else Some(NotOneOf(key, valids))
    case AnyString(allowEmpty) => if v == "" && !allowEmpty then Some(EmptyString(key)) else None
    case HexAddress =>
      if v == "" then Some(EmptyString(key))
      else if |v| != 42 then Some(WrongLength(key, 42))
      else if !IsAddress(v) then Some(PatternMismatch(key, v))
      else None
  }

  /** Whether one declared key is satisfied by the query. */
  predicate FieldOk(f: Field, q: Query) {
    match QueryValue(q, f.key)
    case None => !f.required
    case Some(v) => Accepts(f.rule, v)
  }

  function CheckField(f: Field, q: Query): (r: Option<Violation>)
    ensures r.None? <==> FieldOk(f, q)
    ensures r.Some? ==> KeyOf(r.value) == f.key
  {
    match QueryValue(q, f.key)
    case None => if f.required then Some(Required(f.key)) else None
    case Some(v) => CheckValue(f.key, f.rule, v)
  }

  function CheckFields(fs: seq<Field>, q: Query): (r: Option<Violation>)
    ensures r.None? <==> forall i :: 0 <= i < |fs| ==> FieldOk(fs[i], q)
  {
    if |fs| == 0 then None
    else if CheckField(fs[0], q).Some? then CheckField(fs[0], q)
    else CheckFields(fs[1..], q)
  }

  function Keys(fs: seq<Field>): set<string> {
    set i | 0 <= i < |fs| :: fs[i].key
  }

  /** The first query key the schema does not declare. */
  function FirstUnknown(keys: set<string>, q: Query): (r: Option<string>)
    ensures r.None? <==> forall i :: 0 <= i < |q| ==> q[i].key in keys
    ensures r.Some? ==> r.value !in keys && exists i :: 0 <= i < |q| && q[i].key == r.value
  {
    if |q| == 0 then None
    else if q[0].key !in keys then Some(q[0].key)
    else
      var r := FirstUnknown(keys, q[1..]);
      assert forall i :: 0 <= i < |q[1..]| ==> q[1..][i] == q[i + 1];
      r
  }

  /** `schema.validate(query).error`, reduced to its first detail. */
  function Check(schema: Schema, q: Query): (r: Option<Violation>)
    ensures r.None? <==> (forall i :: 0 <= i < |schema| ==> FieldOk(schema[i], q))
                         && (forall i :: 0 <= i < |q| ==> q[i].key in Keys(schema))
  {
    if CheckFields(schema, q).Some? then CheckFields(schema, q)
    else match FirstUnknown(Keys(schema), q)
      case None => None
      case Some(k) => Some(NotAllowed(k))
  }

  // ---- Joi's default English messages ----

  function Join(parts: seq<string>, sep: string): string {
    if |parts| == 0 then ""
    else if |parts| == 1 then parts[0]
    else parts[0] + sep + Join(parts[1..], sep)
  }

  /** The template text Joi appends to the quoted key, per error type. */
  function Template(v: Violation): string {
    match v
    case Required(_) => " is required"
    case NotANumber(_) => " must be a number"
    case NotAnInteger(_) => " must be an integer"
    case BelowMin(_, n) => " must be greater than or equal to " + IntToString(n)
    case AboveMax(_, n) => " must be less than or equal to " + IntToString(n)
    case NotOneOf(_, vs) => " must be one of [" + Join(vs, ", ") + "]"
    case EmptyString(_) => " is not allowed to be empty"
    case WrongLength(_, n) => " length must be " + NatToString(n) + " characters long"
    case PatternMismatch(_, s) => " with value \"" + s + "\" fails to match the required pattern: /^0x[a-fA-F0-9]{40}$/"
    case NotAllowed(_) => " is not allowed"
  }

  /** `error.details[0].message`: the quoted key, then the template text for the error type. */
  function Message(v: Violation): (m: string)
    ensures |m| >= |v.key| + 2 && m[..|v.key| + 2] == "\"" + v.key + "\""
  {
    var quoted := "\"" + v.key + "\"";
    assert (quoted + Template(v))[..|quoted|] == quoted;
    quoted + Template(v)
  }

  /**
   * `validate(schema)`: checks `req.query` alone and either calls `next()`
   * or calls `next(err)` with the first message and status 400. It never
   * answers the request itself, and the converted value is dropped.
   */
  function Validate(schema: Schema, q: Query): (d: Decision)
    ensures d.Next? <==> Check(schema, q).None?
    ensures !d.Next? ==> d.NextError? && d.errorStatus == Some(400)
    ensures !d.Next? ==> d.message == Message(Check(schema, q).value)
  {
    match Check(schema, q)
    case None => Next
    case Some(v) => NextError(Some(400), Message(v))
  }

  // ---- the two schemas, stated directly ----

  const ListKeys: set<string> := {"page", "limit", "sortBy", "sortOrder", "search"}

  /** The list query as the controller's schema admits it. */
  predicate ValidListQuery(q: Query) {
    && (forall i :: 0 <= i < |q| ==> q[i].key in ListKeys)
    && (QueryValue(q, "page").Some? ==>
          IntegerValue(QueryValue(q, "page").value).Some? && IntegerValue(QueryValue(q, "page").value).value >= 1)
    && (QueryValue(q, "limit").Some? ==>
          IntegerValue(QueryValue(q, "limit").value).Some?
          && 1 <= IntegerValue(QueryValue(q, "limit").value).value <= 100)
    && (QueryValue(q, "sortBy").Some? ==> QueryValue(q, "sortBy").value in {"timestamp", "amount"})
    && (QueryValue(q, "sortOrder").Some? ==> QueryValue(q, "sortOrder").value in {"ASC", "DESC"})
  }

  lemma ListKeysOfSchema()
    ensures Keys(TransactionQuery) == ListKeys
  {
    var fs := TransactionQuery;
    assert fs[0].key == "page" && fs[1].key == "limit" && fs[2].key == "sortBy";
    assert fs[3].key == "sortOrder" && fs[4].key == "search";
  }

  lemma ListFieldsOk(q: Query)
    ensures FieldOk(TransactionQuery[0], q) <==>
      (QueryValue(q, "page").Some? ==>
         IntegerValue(QueryValue(q, "page").value).Some? && IntegerValue(QueryValue(q, "page").value).value >= 1)
    ensures FieldOk(TransactionQuery[1], q) <==>
      (QueryValue(q, "limit").Some? ==>
         IntegerValue(QueryValue(q, "limit").value).Some?
         && 1 <= IntegerValue(QueryValue(q, "limit").value).value <= 100)
    ensures FieldOk(TransactionQuery[2], q) <==>
      (QueryValue(q, "sortBy").Some? ==> QueryValue(q, "sortBy").value in {"timestamp", "amount"})
    ensures FieldOk(TransactionQuery[3], q) <==>
      (QueryValue(q, "sortOrder").Some? ==> QueryValue(q, "sortOrder").value in {"ASC", "DESC"})
    ensures FieldOk(TransactionQuery[4], q)
  {
  }

  /** The controller's schema accepts a query exactly when it is a valid list query. */
  lemma TransactionQueryAccepts(q: Query)
    ensures Check(TransactionQuery, q).None? <==> ValidListQuery(q)
  {
    ListKeysOfSchema();
    ListFieldsOk(q);
    var fs := TransactionQuery;
    assert |fs| == 5;
    assert (forall i :: 0 <= i < |fs| ==> FieldOk(fs[i], q))
      <==> FieldOk(fs[0], q) && FieldOk(fs[1], q) && FieldOk(fs[2], q) && FieldOk(fs[3], q) && FieldOk(fs[4], q)
    by {
      if FieldOk(fs[0], q) && FieldOk(fs[1], q) && FieldOk(fs[2], q) && FieldOk(fs[3], q) && FieldOk(fs[4], q) {
        forall i | 0 <= i < |fs| ensures FieldOk(fs[i], q) {
          assert i == 0 || i == 1 || i == 2 || i == 3 || i == 4;
        }
      }
    }
  }

  /** The address schema accepts a query exactly when it holds one well-formed `userAddress` and nothing else. */
  lemma AddressQueryAccepts(q: Query)
    ensures Check(AddressQuery, q).None? <==>
      QueryValue(q, "userAddress").Some? && IsAddress(QueryValue(q, "userAddress").value)
      && forall i :: 0 <= i < |q| ==> q[i].key == "userAddress"
  {
    assert Keys(AddressQuery) == {"userAddress"} by {
      assert AddressQuery[0].key == "userAddress";
    }
  }

  /** A query naming a key the schema does not declare is refused. */
  lemma UndeclaredKeyRefused(schema: Schema, q: Query, i: nat)
    requires i < |q| && q[i].key !in Keys(schema)
    ensures Check(schema, q).Some?
  {
  }

  /** A string without a `.` has none. */
  lemma NoDotInDigits(s: string)
    requires AllDigits(s)
    ensures FirstDot(s) == None
  {
  }

  /** The decimal text of a natural number converts back to that number. */
  lemma IntegerValueOfNat(n: nat)
    ensures IntegerValue(NatToString(n)) == Some(n)
  {
    var s := NatToString(n);
    NoDotInDigits(s);
    ParseNatToString(n);
    assert !(s[0] == '+' || s[0] == '-');
  }

  /** The text `String(i)` gives for any integer converts back to it. */
  lemma IntegerValueOfInt(i: int)
    ensures IntegerValue(IntToString(i)) == Some(i)
  {
    if i >= 0 {
      IntegerValueOfNat(i);
    } else {
      var ds := NatToString(-i);
      NoDotInDigits(ds);
      ParseNatToString(-i);
      assert IntToString(i)[1..] == ds;
    }
  }

  /** An explicit `+` sign converts to the same number. */
  lemma IntegerValueOfPlus(n: nat)
    ensures IntegerValue("+" + NatToString(n)) == Some(n)
  {
    var ds := NatToString(n);
    NoDotInDigits(ds);
    ParseNatToString(n);
    assert ("+" + ds)[1..] == ds;
  }

  /**
   * A fraction part converts to an integer exactly when it is all zeros, and
   * then to the whole part: `"2.00"` is 2, `"2.5"` is no integer.
   */
  lemma IntegerValueOfFraction(n: nat, f: string)
    requires AllDigits(f)
    ensures AllZeros(f) ==> IntegerValue(NatToString(n) + "." + f) == Some(n)
    ensures !AllZeros(f) ==>
      ParseNumber(NatToString(n) + "." + f).Some? && IntegerValue(NatToString(n) + "." + f).None?
  {
    var ds := NatToString(n);
    var s := ds + "." + f;
    NoDotInDigits(ds);
    assert s[|ds|] == '.';
    assert forall j :: 0 <= j < |ds| ==> s[j] == ds[j];
    FirstDotAt(s, |ds|);
    assert s[..|ds|] == ds;
    assert s[|ds| + 1..] == f;
    ParseNatToString(n);
    assert !(s[0] == '+' || s[0] == '-');
  }

  /** The first `.` is found where it is. */
  lemma {:induction false} FirstDotAt(s: string, k: nat)
    requires k < |s| && s[k] == '.' && forall j :: 0 <= j < k ==> s[j] != '.'
    ensures FirstDot(s) == Some(k)
    decreases k
  {
    if k > 0 {
      FirstDotAt(s[1..], k - 1);
    }
  }

  /** Joi's numeric conversion as modelled: `"12"`, `"+3"`, `"2.0"` are integers; `"1.5"` and `"x"` are not. */
  lemma NumberExamples()
    ensures IntegerValue("12") == Some(12)
    ensures IntegerValue("+3") == Some(3)
    ensures IntegerValue("2.0") == Some(2)
    ensures IntegerValue("-4") == Some(-4)
    ensures ParseNumber("1.5").Some? && IntegerValue("1.5").None?
    ensures ParseNumber("x").None? && ParseNumber("").None?
  {
    assert FirstDot("12") == None;
    assert DigitsValue("12") == 12 by {
      assert "12"[..1] == "1";
    }
    assert FirstDot("3") == None;
    assert FirstDot("2.0") == Some(1);
    assert "2.0"[..1] == "2" && "2.0"[2..] == "0";
    assert FirstDot("4") == None;
    assert FirstDot("1.5") == Some(1);
    assert "1.5"[..1] == "1" && "1.5"[2..] == "5";
    assert !AllZeros("5") by {
      assert "5"[0] != '0';
    }
    assert Unsigned("1.5") == Some((1, false));
    assert !IsDigit('x');
  }
}

=== FILE: staking_form.dfy ===
/**
 * The stake/withdraw form (fe/src/components/StakingForm.jsx): the
 * five-minute lock test, the remaining-time display and the withdraw guard.
 * Times are in milliseconds except the contract's `depositTime`, which is in
 * whole seconds.
 */
module StakingForm {
  import opened Common
  import opened Text

  /** `LOCK_PERIOD`: five minutes in milliseconds. */
  const LockPeriod: nat := 5 * 60 * 1000

  /** The deposit moment in milliseconds, from the contract's seconds. */
  function DepositMs(depositTime: nat): nat {
    depositTime * 1000
  }

  /** The lock test run at every refresh, with `now` from `Date.now()`. */
  predicate IsLocked(now: int, depositTime: nat) {
    now - DepositMs(depositTime) < LockPeriod
  }

  /** `Math.max(0, LOCK_PERIOD - (now - depositTime))`: milliseconds still to wait. */
  function RemainingMs(now: int, depositTime: nat): (rem: nat)
    ensures rem > 0 <==> IsLocked(now, depositTime)
    ensures now >= DepositMs(depositTime) ==> rem <= LockPeriod
    ensures IsLocked(now, depositTime) ==> DepositMs(depositTime) + LockPeriod == now + rem
  {
    var left := LockPeriod - (now - DepositMs(depositTime));
    if left > 0 then left else 0
  }

  /** The minutes and seconds the form prints, both truncated. */
  datatype Shown = Shown(minutes: nat, seconds: nat)

  /** The minutes and whole seconds `renderLockStatus` derives from the remaining time. */
  function Display(rem: nat): (d: Shown)
    ensures d.seconds < 60
    ensures d.minutes * 60000 + d.seconds * 1000 <= rem < d.minutes * 60000 + d.seconds * 1000 + 1000
    ensures rem <= LockPeriod ==> d.minutes <= 5
    ensures rem <= LockPeriod && d.minutes == 5 ==> d.seconds == 0
  {
    var d := Shown(rem / 60000, (rem % 60000) / 1000);
    assert rem == (rem / 60000) * 60000 + rem % 60000;
    assert rem % 60000 == ((rem % 60000) / 1000) * 1000 + (rem % 60000) % 1000;
    d
  }

  /** The display is the unique split of `rem` into whole minutes, whole seconds below 60, and a sub-second rest. */
  lemma DisplayUnique(rem: nat, m: nat, s: nat)
    requires s < 60
    requires m * 60000 + s * 1000 <= rem < m * 60000 + s * 1000 + 1000
    ensures Display(rem) == Shown(m, s)
  {
    var d := Display(rem);
    var a := d.minutes * 60 + d.seconds;
    var b := m * 60 + s;
    assert a * 1000 <= rem < a * 1000 + 1000;
    assert b * 1000 <= rem < b * 1000 + 1000;
    assert a == b;
  }

  const LockedPrefix := "Locked for "

  /** `renderLockStatus()` for the `isLocked` flag of the last refresh and the current clock. */
  function LockStatus(locked: bool, now: int, depositTime: nat): (text: string)
    ensures !locked <==> text == "Unlocked"
  {
    if locked then
      var d := Display(RemainingMs(now, depositTime));
      LockedPrefix + NatToString(d.minutes) + "m " + NatToString(d.seconds) + "s"
    else "Unlocked"
  }

  /**
   * The reading a user makes of the status line: `Locked for <m>m <s>s` is
   * that many minutes and seconds; anything else, "Unlocked" included, is no
   * lock time.
   */
  function ReadLockStatus(t: string): (r: Option<Shown>)
    ensures r.Some? ==> |t| > |LockedPrefix| && t[..|LockedPrefix|] == LockedPrefix
  {
    if |t| < |LockedPrefix| || t[..|LockedPrefix|] != LockedPrefix then None
    else
      match ReadField(t[|LockedPrefix|..], 'm')
      case None => None
      case Some((minutes, t1)) =>
        match ReadSpacedField(t1, 's')
        case None => None
        case Some((seconds, t2)) => if t2 == [] then Some(Shown(minutes, seconds)) else None
  }

  /**
   * While locked, the status line shows the minutes and seconds of the time
   * still to wait, and reading them back recovers that split; unlocked, it
   * shows no lock time.
   */
  lemma ReadLockStatusShowsRemaining(locked: bool, now: int, depositTime: nat)
    ensures locked ==> ReadLockStatus(LockStatus(locked, now, depositTime)) == Some(Display(RemainingMs(now, depositTime)))
    ensures !locked ==> ReadLockStatus(LockStatus(locked, now, depositTime)) == None
  {
    if locked {
      var d := Display(RemainingMs(now, depositTime));
      var t := LockStatus(locked, now, depositTime);
      var t1 := " " + Field(d.seconds, 's') + [];
      assert t == LockedPrefix + (Field(d.minutes, 'm') + t1);
      assert t[..|LockedPrefix|] == LockedPrefix;
      assert t[|LockedPrefix|..] == Field(d.minutes, 'm') + t1;
      ReadFieldOf(d.minutes, 'm', t1);
      ReadSpacedFieldOf(d.seconds, 's', []);
    } else {
      assert LockStatus(locked, now, depositTime) == "Unlocked";
      assert "Unlocked"[0] != LockedPrefix[0];
    }
  }

  // ---- withdrawing ----

  /** A toast the form raises. */
  datatype Toast = ErrorToast(text: string) | SuccessToast(text: string)

  /** What one click did: the `withdraw(claimOnly)` call sent, if any, and the toast shown. */
  datatype Withdrawal = Withdrawal(sent: Option<bool>, toast: Toast)

  const LockedText := "Tokens are still locked. Please wait for the lock period to end."

  /**
   * `handleWithdraw(claimOnly)`; `call` is how the contract transaction
   * ends when it is sent.
   */
  function HandleWithdraw(locked: bool, claimOnly: bool, call: Completion): (w: Withdrawal)
    ensures w.sent.Some? <==> !locked
    ensures w.sent.Some? ==> w.sent.value == claimOnly
    ensures locked ==> w.toast == ErrorToast(LockedText)
    ensures !locked && call.Success? ==>
      w.toast == SuccessToast(if claimOnly then "Rewards claimed successfully" else "Tokens withdrawn successfully")
    ensures !locked && call.Thrown? ==> w.toast == ErrorToast("Error withdrawing tokens")
  {
    if locked then Withdrawal(None, ErrorToast(LockedText))
    else
      match call
      case Success =>
        Withdrawal(Some(claimOnly),
                   SuccessToast(if claimOnly then "Rewards claimed successfully" else "Tokens withdrawn successfully"))
      case Thrown(_) => Withdrawal(Some(claimOnly), ErrorToast("Error withdrawing tokens"))
  }

  /**
   * With the flag set by a refresh at `now`, no withdraw or claim reaches
   * the contract within five minutes of the deposit, and both do after.
   */
  lemma NoWithdrawWhileLocked(now: int, depositTime: nat, claimOnly: bool, call: Completion)
    ensures HandleWithdraw(IsLocked(now, depositTime), claimOnly, call).sent.Some?
        <==> now >= depositTime * 1000 + 300000
  {
  }

  /** The remaining time counts down with the clock and is never shown past the lock period. */
  lemma RemainingShrinks(now: int, later: int, depositTime: nat)
    requires now <= later
    ensures RemainingMs(later, depositTime) <= RemainingMs(now, depositTime)
    ensures IsLocked(later, depositTime) ==> IsLocked(now, depositTime)
  {
  }
}

=== FILE: staking_info.dfy ===
/**
 * The staking summary card (fe/src/components/StakingInfo.jsx): the
 * lock-time text, the one-second countdown that drives it, and the
 * effective APR it shows.
 */
module StakingInfo {
  import opened Common
  import opened Text

  const SecondsPerMinute: nat := 60
  const SecondsPerHour: nat := 3600
  const SecondsPerDay: nat := 86400

  /** A duration split into the four fields `formatTime` prints. */
  datatype Duration = Duration(days: nat, hours: nat, minutes: nat, seconds: nat)

  /** Every field below the next unit up. */
  predicate Normal(d: Duration) {
    d.hours < 24 && d.minutes < 60 && d.seconds < 60
  }

  /** The number of seconds a duration stands for. */
  function TotalSeconds(d: Duration): nat {
    d.days * SecondsPerDay + d.hours * SecondsPerHour + d.minutes * SecondsPerMinute + d.seconds
  }

  /** The split `formatTime` makes with `Math.floor` and `%` on a positive whole number of seconds. */
  function Split(s: nat): (d: Duration)
    ensures Normal(d)
    ensures TotalSeconds(d) == s
  {
    SplitSums(s);
    Duration(s / SecondsPerDay, (s % SecondsPerDay) / SecondsPerHour, (s % SecondsPerHour) / SecondsPerMinute,
             s % SecondsPerMinute)
  }

  lemma SplitSums(s: nat)
    ensures (s / 86400) * 86400 + ((s % 86400) / 3600) * 3600 + ((s % 3600) / 60) * 60 + s % 60 == s
  {
    var r := s % 86400;
    assert s == (s / 86400) * 86400 + r;
    assert r == (r / 3600) * 3600 + r % 3600;
    assert s % 3600 == r % 3600 by {
      assert s == ((s / 86400) * 24) * 3600 + r;
      ModOfMultiplePlus((s / 86400) * 24, 3600, r);
    }
    var m := s % 3600;
    assert m == (m / 60) * 60 + m % 60;
    assert s % 60 == m % 60 by {
      assert s == ((s / 3600) * 60) * 60 + m;
      ModOfMultiplePlus((s / 3600) * 60, 60, m);
    }
  }

  lemma ModOfMultiplePlus(k: nat, n: nat, r: nat)
    requires n > 0
    ensures (k * n + r) % n == r % n
  {
    assert r == (r / n) * n + r % n;
    assert k * n + (r / n) * n == (k + r / n) * n;
    DivModUnique(k * n + r, n, k + r / n, r % n);
  }

  /** A normal duration is the split of its own total: the split is the only normal one. */
  lemma SplitUnique(d: Duration)
    requires Normal(d)
    ensures Split(TotalSeconds(d)) == d
  {
    var s := TotalSeconds(d);
    var lower := d.hours * 3600 + d.minutes * 60 + d.seconds;
    assert lower < 86400;
    assert s == d.days * 86400 + lower;
    DivModUnique(s, 86400, d.days, lower);
    var low2 := d.minutes * 60 + d.seconds;
    assert low2 < 3600;
    assert s == (d.days * 24 + d.hours) * 3600 + low2;
    DivModUnique(s, 3600, d.days * 24 + d.hours, low2);
    DivModUnique(lower, 3600, d.hours, low2);
    DivModUnique(low2, 60, d.minutes, d.seconds);
    DivModUnique(s, 60, (d.days * 24 + d.hours) * 60 + d.minutes, d.seconds);
  }

  lemma DivModUnique(a: nat, n: nat, q: nat, r: nat)
    requires n > 0 && r < n && a == q * n + r
    ensures a / n == q && a % n == r
  {
    var q', r' := a / n, a % n;
    if q' < q {
      assert q * n == q' * n + (q - q') * n;
      MulAtLeast(q - q', n);
    } else if q' > q {
      assert q' * n == q * n + (q' - q) * n;
      MulAtLeast(q' - q, n);
    }
  }

  lemma {:induction false} MulAtLeast(d: nat, n: nat)
    requires d >= 1
    ensures d * n >= n
    decreases d
  {
    if d > 1 {
      MulAtLeast(d - 1, n);
      assert d * n == (d - 1) * n + n;
    }
  }

  // ---- the lock-time text ----

  const UnlockedText := "Unlocked"

  /** The `${days}d ${hours}h ${minutes}m ${remainingSeconds}s` template. */
  function Clock(d: Duration): (t: string)
    ensures |t| > 0 && t[0] == NatToString(d.days)[0] && t[|t| - 1] == 's'
  {
    Field(d.days, 'd') + " " + Field(d.hours, 'h') + " " + Field(d.minutes, 'm') + " " + Field(d.seconds, 's')
  }

  /** `formatTime(seconds)`: "Unlocked" at or below zero, otherwise the clock text of the split. */
  function FormatTime(s: int): (t: string)
    ensures s <= 0 <==> t == UnlockedText
    ensures s > 0 ==> |t| > 0 && t[|t| - 1] == 's'
  {
    if s <= 0 then UnlockedText else Clock(Split(s))
  }

  /**
   * The reading a user makes of the lock-time text: "Unlocked" is zero
   * seconds left, `<d>d <h>h <m>m <s>s` is that many, anything else is
   * not a lock-time text.
   */
  function ReadTime(t: string): (r: Option<nat>)
    ensures r == Some(0) ==> t == UnlockedText
  {
    if t == UnlockedText then Some(0)
    else
      match ReadField(t, 'd')
      case None => None
      case Some((days, t1)) =>
        match ReadSpacedField(t1, 'h')
        case None => None
        case Some((hours, t2)) =>
          match ReadSpacedField(t2, 'm')
          case None => None
          case Some((minutes, t3)) =>
            match ReadSpacedField(t3, 's')
            case None => None
            case Some((seconds, t4)) =>
              var n := TotalSeconds(Duration(days, hours, minutes, seconds));
              if t4 == [] && n > 0 then Some(n) else None
  }

  lemma ClockNested(d: Duration)
    ensures Clock(d) == Field(d.days, 'd') + (" " + Field(d.hours, 'h') + (" " + Field(d.minutes, 'm')
                        + (" " + Field(d.seconds, 's') + [])))
  {
  }

  /** The clock text reads back to the duration's total. */
  lemma ReadClock(d: Duration)
    requires TotalSeconds(d) > 0
    ensures ReadTime(Clock(d)) == Some(TotalSeconds(d))
  {
    var t4 := " " + Field(d.seconds, 's') + [];
    var t3 := " " + Field(d.minutes, 'm') + t4;
    var t2 := " " + Field(d.hours, 'h') + t3;
    var t := Clock(d);
    ClockNested(d);
    assert t == Field(d.days, 'd') + t2;
    ReadFieldOf(d.days, 'd', t2);
    ReadSpacedFieldOf(d.hours, 'h', t3);
    ReadSpacedFieldOf(d.minutes, 'm', t4);
    ReadSpacedFieldOf(d.seconds, 's', []);
    assert t != UnlockedText by {
      NatToStringStart(d.days);
    }
    assert ReadField(t, 'd') == Some((d.days, t2));
    assert ReadSpacedField(t2, 'h') == Some((d.hours, t3));
    assert ReadSpacedField(t3, 'm') == Some((d.minutes, t4));
    assert ReadSpacedField(t4, 's') == Some((d.seconds, []));
  }

  lemma NatToStringStart(n: nat)
    ensures NatToString(n)[0] != 'U'
  {
  }

  /** Reading the text back gives the remaining seconds, clamped at zero as the text clamps them. */
  lemma ReadFormatTime(s: int)
    ensures ReadTime(FormatTime(s)) == Some(if s <= 0 then 0 else s)
  {
    if s > 0 {
      ReadClock(Split(s));
    }
  }

  // ---- the countdown ----

  /** What one tick of the countdown interval does: the new value, and whether the interval keeps running. */
  datatype Tick = Tick(remaining: int, running: bool)

  /** The `setRemainingLockTime` updater run every second. */
  function Step(prev: int): (t: Tick)
    ensures t.remaining >= 0
    ensures t.running <==> prev > 0
    ensures t.running ==> t.remaining == prev - 1
    ensures !t.running ==> t.remaining == 0
  {
    if prev <= 0 then Tick(0, false) else Tick(prev - 1, true)
  }

  /** The value shown after `n` ticks starting from `start`. */
  function Countdown(start: int, n: nat): int
    decreases n
  {
    if n == 0 then start else Countdown(Step(start).remaining, n - 1)
  }

  function Max(a: int, b: int): int {
    if a >= b then a else b
  }

  /** From a non-negative start, `n` ticks leave `max(start - n, 0)` seconds. */
  lemma {:induction false} CountdownValue(start: int, n: nat)
    requires start >= 0
    ensures Countdown(start, n) == Max(start - n, 0)
    decreases n
  {
    if n > 0 {
      CountdownValue(Step(start).remaining, n - 1);
    }
  }

  /** The card reads "Unlocked" exactly once the countdown has run `start` ticks. */
  lemma CountdownShowsUnlocked(start: nat, n: nat)
    ensures FormatTime(Countdown(start, n)) == UnlockedText <==> n >= start
  {
    CountdownValue(start, n);
  }

  // ---- the effective APR ----

  /** `baseAPR.add(nftBonusAPR.mul(stake.nftCount))`, in basis points on unbounded BigNumbers. */
  function EffectiveApr(baseApr: nat, nftBonusApr: nat, nftCount: nat): (apr: nat)
    ensures apr >= baseApr
    ensures nftCount == 0 ==> apr == baseApr
  {
    baseApr + nftBonusApr * nftCount
  }

  /** The same rate built one staked NFT at a time. */
  function AprByNfts(baseApr: nat, nftBonusApr: nat, nftCount: nat): nat
    decreases nftCount
  {
    if nftCount == 0 then baseApr else AprByNfts(baseApr, nftBonusApr, nftCount - 1) + nftBonusApr
  }

  /** Every staked NFT adds exactly the bonus rate. */
  lemma {:induction false} EachNftAddsBonus(baseApr: nat, nftBonusApr: nat, nftCount: nat)
    ensures EffectiveApr(baseApr, nftBonusApr, nftCount) == AprByNfts(baseApr, nftBonusApr, nftCount)
    decreases nftCount
  {
    if nftCount > 0 {
      EachNftAddsBonus(baseApr, nftBonusApr, nftCount - 1);
    }
  }

  /** More staked NFTs never lower the rate. */
  lemma AprMonotone(baseApr: nat, nftBonusApr: nat, m: nat, n: nat)
    requires m <= n
    ensures EffectiveApr(baseApr, nftBonusApr, m) <= EffectiveApr(baseApr, nftBonusApr, n)
  {
    assert nftBonusApr * m <= nftBonusApr * n;
  }
}

=== FILE: text.dfy ===
/**
 * Decimal rendering and parsing of natural numbers, and ASCII lower-casing:
 * the string operations the modelled JavaScript performs through template
 * literals, `String(n)` and `toLowerCase`.
 */
module Text {
  import opened Common

  predicate IsDigit(c: char) {
    '0' <= c <= '9'
  }

  predicate AllDigits(s: string) {
    forall i :: 0 <= i < |s| ==> IsDigit(s[i])
  }

  function DigitChar(d: nat): (c: char)
    requires d < 10
    ensures IsDigit(c) && (c as int) - ('0' as int) == d
  {
    (('0' as int) + d) as char
  }

  function DigitValue(c: char): (d: nat)
    requires IsDigit(c)
    ensures d < 10 && DigitChar(d) == c
  {
    (c as int) - ('0' as int)
  }

  /** The decimal form of `n`, as JavaScript prints a non-negative integer. */
  function NatToString(n: nat): (s: string)
    ensures |s| >= 1 && AllDigits(s)
    ensures |s| > 1 ==> s[0] != '0'
    decreases n
  {
    if n < 10 then [DigitChar(n)] else NatToString(n / 10) + [DigitChar(n % 10)]
  }

  /** The decimal form of an integer, with a leading minus sign when negative. */
  function IntToString(i: int): (s: string)
    ensures |s| >= 1
    ensures i >= 0 <==> s[0] != '-'
  {
    if i >= 0 then NatToString(i) else "-" + NatToString(-i)
  }

  /** The value of a string of decimal digits (zero for the empty string). */
  function DigitsValue(s: string): nat
    requires AllDigits(s)
    decreases |s|
  {
    if |s| == 0 then 0 else DigitsValue(s[..|s| - 1]) * 10 + DigitValue(s[|s| - 1])
  }

  /** Reads a non-empty string of decimal digits; anything else is rejected. */
  function ParseNat(s: string): (r: Option<nat>)
    ensures r.Some? <==> |s| > 0 && AllDigits(s)
  {
    if |s| > 0 && AllDigits(s) then Some(DigitsValue(s)) else None
  }

  lemma {:induction false} DigitsValueOfNatToString(n: nat)
    ensures DigitsValue(NatToString(n)) == n
    decreases n
  {
    var s := NatToString(n);
    if n >= 10 {
      var p := NatToString(n / 10);
      assert s[..|s| - 1] == p;
      DigitsValueOfNatToString(n / 10);
    }
  }

  /** Parsing the decimal rendering of `n` gives back `n`. */
  lemma ParseNatToString(n: nat)
    ensures ParseNat(NatToString(n)) == Some(n)
  {
    DigitsValueOfNatToString(n);
  }

  /** The length of the longest all-digit prefix of `s`. */
  function DigitPrefixLength(s: string): (k: nat)
    ensures k <= |s| && AllDigits(s[..k])
    ensures k < |s| ==> !IsDigit(s[k])
    decreases |s|
  {
    if |s| == 0 || !IsDigit(s[0]) then 0
    else
      var k := 1 + DigitPrefixLength(s[1..]);
      assert s[..k] == [s[0]] + s[1..][..k - 1];
      k
  }

  /** A digit string followed by a non-digit splits exactly at its end. */
  lemma {:induction false} DigitPrefixOfDigitsThenRest(ds: string, rest: string)
    requires AllDigits(ds)
    requires |rest| > 0 && !IsDigit(rest[0])
    ensures DigitPrefixLength(ds + rest) == |ds|
    decreases |ds|
  {
    if |ds| > 0 {
      assert (ds + rest)[1..] == ds[1..] + rest;
      DigitPrefixOfDigitsThenRest(ds[1..], rest);
    }
  }

  // ---- a number followed by its unit letter, as the front end prints durations ----

  /** One printed field: the number, then its unit letter. */
  function Field(n: nat, unit: char): string {
    NatToString(n) + [unit]
  }

  /** Reads one field off the front of `t`: digits, then `unit`; returns the value and the rest. */
  function ReadField(t: string, unit: char): (r: Option<(nat, string)>)
    ensures r.Some? ==> |r.value.1| < |t|
  {
    var k := DigitPrefixLength(t);
    if k == 0 || k >= |t| || t[k] != unit then None
    else Some((DigitsValue(t[..k]), t[k + 1..]))
  }

  /** Reads `" "` followed by one field. */
  function ReadSpacedField(t: string, unit: char): (r: Option<(nat, string)>) {
    if |t| == 0 || t[0] != ' ' then None else ReadField(t[1..], unit)
  }

  /** Reading a printed field gives back its number and the text after it. */
  lemma ReadFieldOf(n: nat, unit: char, rest: string)
    requires !IsDigit(unit)
    ensures ReadField(Field(n, unit) + rest, unit) == Some((n, rest))
  {
    var ds := NatToString(n);
    var t := Field(n, unit) + rest;
    assert t == ds + ([unit] + rest);
    DigitPrefixOfDigitsThenRest(ds, [unit] + rest);
    assert t[..|ds|] == ds;
    assert t[|ds|] == unit;
    assert t[|ds| + 1..] == rest;
    ParseNatToString(n);
    DigitsValueOfNatToString(n);
  }

  /** The same after a leading space. */
  lemma ReadSpacedFieldOf(n: nat, unit: char, rest: string)
    requires !IsDigit(unit)
    ensures ReadSpacedField(" " + Field(n, unit) + rest, unit) == Some((n, rest))
  {
    var t := " " + Field(n, unit) + rest;
    assert t[1..] == Field(n, unit) + rest;
    ReadFieldOf(n, unit, rest);
  }

  /** ASCII lower-casing of one character. */
  function LowerChar(c: char): (r: char)
    ensures 'A' <= c <= 'Z' ==> r as int == c as int + 32
    ensures !('A' <= c <= 'Z') ==> r == c
  {
    if 'A' <= c <= 'Z' then (c as int + 32) as char else c
  }

  /** ASCII lower-casing of a string, the model of `String.prototype.toLowerCase`. */
  function Lower(s: string): (r: string)
    ensures |r| == |s|
    ensures forall i :: 0 <= i < |s| ==> r[i] == LowerChar(s[i])
  {
    seq(|s|, i requires 0 <= i < |s| => LowerChar(s[i]))
  }
}

=== FILE: transaction_controller.dfy ===
/**
 * The two transaction handlers (be/src/controllers/transactionController.js),
 * each exported behind `validate(transactionQuerySchema)`. The handlers pass
 * the raw query strings on to the store, never the validated values, and hand
 * store errors to `next`.
 */
module TransactionController {
  import opened Common
  import opened Http
  import opened QuerySchema

  /** The store query a handler issues, with the arguments it forwards. */
  datatype StoreCall =
    | GetAll(page: Option<string>, limit: Option<string>, sortBy: Option<string>,
             sortOrder: Option<string>, search: Option<string>)
    | GetByUser(address: string, page: Option<string>, limit: Option<string>,
                sortBy: Option<string>, sortOrder: Option<string>)

  /** What handling one request did: the store query issued (if any) and the decision. */
  datatype Handled = Handled(call: Option<StoreCall>, decision: Decision)

  /** `res.json(transactions)` when the store answers, `next(error)` when it throws. */
  function Reply(answer: Completion): (d: Decision)
    ensures d.Respond? <==> answer.Success?
    ensures answer.Thrown? ==> d == NextError(None, answer.message)
  {
    match answer
    case Success => Respond(200, Payload)
    case Thrown(m) => NextError(None, m)
  }

  function AllCall(q: Query): StoreCall {
    GetAll(QueryValue(q, "page"), QueryValue(q, "limit"), QueryValue(q, "sortBy"),
           QueryValue(q, "sortOrder"), QueryValue(q, "search"))
  }

  function UserCall(address: string, q: Query): StoreCall {
    GetByUser(address, QueryValue(q, "page"), QueryValue(q, "limit"), QueryValue(q, "sortBy"),
              QueryValue(q, "sortOrder"))
  }

  /** The exported `getAllTransactions`: validation, then the handler. */
  function GetAllTransactions(q: Query, answer: Completion): (r: Handled)
    ensures r.call.Some? <==> ValidListQuery(q)
    ensures r.call.Some? ==> r.call.value == GetAll(QueryValue(q, "page"), QueryValue(q, "limit"),
                                                    QueryValue(q, "sortBy"), QueryValue(q, "sortOrder"),
                                                    QueryValue(q, "search"))
    ensures !ValidListQuery(q) ==> r.decision.NextError? && r.decision.errorStatus == Some(400)
    ensures ValidListQuery(q) ==> r.decision == Reply(answer)
  {
    TransactionQueryAccepts(q);
    var gate := Validate(TransactionQuery, q);
    if !gate.Next? then Handled(None, gate) else Handled(Some(AllCall(q)), Reply(answer))
  }

  /** The exported `getUserTransactions` for path parameter `address`: validation, then the handler. */
  function GetUserTransactions(address: string, q: Query, answer: Completion): (r: Handled)
    ensures r.call.Some? <==> ValidListQuery(q)
    ensures r.call.Some? ==> r.call.value == GetByUser(address, QueryValue(q, "page"), QueryValue(q, "limit"),
                                                       QueryValue(q, "sortBy"), QueryValue(q, "sortOrder"))
    ensures !ValidListQuery(q) ==> r.decision.NextError? && r.decision.errorStatus == Some(400)
    ensures ValidListQuery(q) ==> r.decision == Reply(answer)
  {
    TransactionQueryAccepts(q);
    var gate := Validate(TransactionQuery, q);
    if !gate.Next? then Handled(None, gate) else Handled(Some(UserCall(address, q)), Reply(answer))
  }

  /** Neither handler answers an error itself: every direct answer is a 200. */
  lemma HandlersAnswerOnlySuccess(address: string, q: Query, answer: Completion)
    ensures GetAllTransactions(q, answer).decision.Respond? ==> GetAllTransactions(q, answer).decision.status == 200
    ensures GetUserTransactions(address, q, answer).decision.Respond? ==>
      GetUserTransactions(address, q, answer).decision.status == 200
  {
  }

  /** The schema's defaults are not written back: an empty query forwards no values at all. */
  lemma DefaultsNotForwarded(answer: Completion)
    ensures GetAllTransactions([], answer).call == Some(GetAll(None, None, None, None, None))
  {
    assert ValidListQuery([]);
  }

  lemma {:induction false} QueryValueAppend(q: Query, p: Param, key: string)
    ensures QueryValue(q + [p], key) == if QueryValue(q, key).Some? then QueryValue(q, key)
                                        else if p.key == key then Some(p.value) else None
    decreases |q|
  {
    if |q| == 0 {
      assert q + [p] == [p];
    } else {
      assert (q + [p])[0] == q[0];
      assert (q + [p])[1..] == q[1..] + [p];
      QueryValueAppend(q[1..], p, key);
    }
  }

  /** Appending a `search` term to a valid list query keeps it valid and leaves every other key's value alone. */
  lemma AppendSearch(q: Query, term: string)
    requires ValidListQuery(q) && QueryValue(q, "search").None?
    ensures ValidListQuery(q + [Param("search", term)])
    ensures QueryValue(q + [Param("search", term)], "search") == Some(term)
    ensures forall k :: k != "search" ==> QueryValue(q + [Param("search", term)], k) == QueryValue(q, k)
  {
    var p := Param("search", term);
    var q' := q + [p];
    forall k | k != "search" ensures QueryValue(q', k) == QueryValue(q, k) {
      QueryValueAppend(q, p, k);
    }
    QueryValueAppend(q, p, "search");
    forall i | 0 <= i < |q'| ensures q'[i].key in ListKeys {
      if i < |q| { assert q'[i] == q[i]; }
    }
  }

  /**
   * Adding a `search` term changes what the all-transactions handler asks
   * the store for, and leaves the user handler's query unchanged.
   */
  lemma SearchForwardedOnlyByAll(address: string, q: Query, term: string, answer: Completion)
    requires ValidListQuery(q) && QueryValue(q, "search").None?
    ensures GetAllTransactions(q + [Param("search", term)], answer).call.Some?
    ensures GetAllTransactions(q + [Param("search", term)], answer).call.value.search == Some(term)
    ensures GetUserTransactions(address, q + [Param("search", term)], answer).call
         == GetUserTransactions(address, q, answer).call
  {
    AppendSearch(q, term);
  }

  /** The error a call of a method the exported model does not define throws. */
  function NotAFunction(name: string): string {
    "Transaction." + name + " is not a function"
  }

  /**
   * As written, the imported model is a bare Mongoose model without `getAll`
   * or `getByUser`, so every valid query ends in `next(error)` and neither
   * handler ever answers 200.
   */
  lemma AsWrittenNeverAnswers(address: string, q: Query)
    ensures ValidListQuery(q) ==>
      GetAllTransactions(q, Thrown(NotAFunction("getAll"))).decision == NextError(None, NotAFunction("getAll"))
    ensures ValidListQuery(q) ==>
      GetUserTransactions(address, q, Thrown(NotAFunction("getByUser"))).decision
        == NextError(None, NotAFunction("getByUser"))
    ensures !GetAllTransactions(q, Thrown(NotAFunction("getAll"))).decision.Respond?
    ensures !GetUserTransactions(address, q, Thrown(NotAFunction("getByUser"))).decision.Respond?
  {
  }
}

=== FILE: upsert_crawler.dfy ===
/**
 * The batch crawler that upserts by transaction hash
 * (be/src/utils/cronJobs.js). One run scans a single window of at most
 * 1000 blocks after the cursor, writes one document per event keyed by its
 * transaction hash, and on success moves the cursor to the window's end.
 * Errors are logged and swallowed: the cursor stays, writes already made stay.
 */
module UpsertCrawler {
  import opened Common
  import opened Chain

  const BatchSize: nat := 1000

  /** The inclusive block range `fromBlock .. toBlock` of one run. */
  datatype Window = Window(lo: nat, hi: nat)

  /** `fromBlock = cursor + 1`, `toBlock = min(fromBlock + 999, head)`. */
  function NextWindow(cursor: nat, head: nat): (w: Window)
    ensures w.lo == cursor + 1
    ensures w.hi <= head && w.hi + 1 <= w.lo + BatchSize
    ensures w.hi == head || w.hi + 1 == w.lo + BatchSize
  {
    var lo := cursor + 1;
    Window(lo, if lo + BatchSize - 1 <= head then lo + BatchSize - 1 else head)
  }

  /** The document written for one event. `amountWei` is `tx.value` before the conversion to ether. */
  datatype StoredTx = StoredTx(
    senderAddress: string,
    receiverAddress: Option<string>,
    amountWei: nat,
    timestamp: int,
    transactionHash: string)

  /** The collection, addressed by transaction hash. */
  type Store = map<string, StoredTx>

  /** Every document sits under its own hash. */
  ghost predicate WellKeyed(m: Store) {
    forall h :: h in m ==> m[h].transactionHash == h
  }

  /** The document for event `e`: sender and receiver from its transaction, time from that transaction's block. */
  function Document(c: Snapshot, e: Event): (d: StoredTx)
    ensures d.senderAddress == c.tx(e.txHash).sender
    ensures d.receiverAddress == c.tx(e.txHash).recipient
    ensures d.amountWei == c.tx(e.txHash).value
    ensures d.timestamp == c.timestamp(c.tx(e.txHash).blockNumber) * 1000
    ensures d.transactionHash == e.txHash
  {
    var tx := c.tx(e.txHash);
    StoredTx(tx.sender, tx.recipient, tx.value, c.timestamp(tx.blockNumber) * 1000, e.txHash)
  }

  /** `findOneAndUpdate({transactionHash}, doc, {upsert: true})`. */
  function Upsert(m: Store, d: StoredTx): (r: Store)
    ensures r.Keys == m.Keys + {d.transactionHash}
    ensures r[d.transactionHash] == d
    ensures forall h :: h != d.transactionHash && h in m ==> r[h] == m[h]
  {
    m[d.transactionHash := d]
  }

  /** The upserts of `ds`, applied in order. */
  function UpsertAll(m: Store, ds: seq<StoredTx>): Store
    decreases |ds|
  {
    if |ds| == 0 then m else UpsertAll(Upsert(m, ds[0]), ds[1..])
  }

  function Hashes(ds: seq<StoredTx>): set<string> {
    set d | d in ds :: d.transactionHash
  }

  /** Whether two stores hold the same document (or none) under `h`. */
  predicate AgreeAt(m1: Store, m2: Store, h: string) {
    (h in m1 <==> h in m2) && (h in m1 ==> m1[h] == m2[h])
  }

  /** The I/O calls of a run, in program order. */
  datatype Call =
    | GetBlockNumber
    | GetPastEvents(lo: nat, hi: nat)
    | GetTransaction(hash: string)
    | GetBlock(number: nat)
    | Write(doc: StoredTx)

  /** The documents for `evs`, in order: the reference for what a run writes. */
  function Documents(c: Snapshot, evs: seq<Event>): (ds: seq<StoredTx>)
    ensures |ds| == |evs|
    ensures forall i :: 0 <= i < |evs| ==> ds[i] == Document(c, evs[i])
  {
    seq(|evs|, i requires 0 <= i < |evs| => Document(c, evs[i]))
  }

  /** The loop over events: fetch the transaction, fetch its block, upsert. */
  function EventCalls(c: Snapshot, evs: seq<Event>): seq<Call> {
    if |evs| == 0 then []
    else
      [GetTransaction(evs[0].txHash), GetBlock(c.tx(evs[0].txHash).blockNumber), Write(Document(c, evs[0]))]
      + EventCalls(c, evs[1..])
  }

  function CrawlCalls(c: Snapshot, w: Window): seq<Call> {
    [GetBlockNumber, GetPastEvents(w.lo, w.hi)] + EventCalls(c, EventsInRange(c, w.lo, w.hi))
  }

  /** The documents of the `Write` calls among `calls`, in order. */
  function Written(calls: seq<Call>): seq<StoredTx> {
    if |calls| == 0 then []
    else (if calls[0].Write? then [calls[0].doc] else []) + Written(calls[1..])
  }

  /** The crawler's module state: `lastProcessedBlock` and the collection. */
  datatype State = State(cursor: nat, store: Store)

  /** The module starts with the cursor at 0, so the first window starts at block 1. */
  function Initial(store: Store): (s: State)
    ensures NextWindow(s.cursor, 0).lo == 1
    ensures s.store == store
  {
    State(0, store)
  }

  predicate Completes(calls: seq<Call>, fault: Option<nat>) {
    fault.None? || fault.value >= |calls|
  }

  /**
   * One `crawlTransactions` run against snapshot `c`; the call with index
   * `fault` throws and the run ends quietly there.
   */
  function CrawlTransactions(s: State, c: Snapshot, fault: Option<nat>): (r: State)
    ensures var w := NextWindow(s.cursor, c.head);
      Completes(CrawlCalls(c, w), fault) ==>
        r == State(w.hi, UpsertAll(s.store, Documents(c, EventsInRange(c, w.lo, w.hi))))
    ensures var w := NextWindow(s.cursor, c.head);
      !Completes(CrawlCalls(c, w), fault) ==>
        r.cursor == s.cursor
        && exists p :: IsPrefix(p, Documents(c, EventsInRange(c, w.lo, w.hi))) && r.store == UpsertAll(s.store, p)
  {
    var w := NextWindow(s.cursor, c.head);
    var calls := CrawlCalls(c, w);
    WrittenOfCrawl(c, w);
    if Completes(calls, fault) then
      State(w.hi, UpsertAll(s.store, Written(calls)))
    else
      var k := fault.value;
      WrittenPrefix(calls, k);
      State(s.cursor, UpsertAll(s.store, Written(calls[..k])))
  }

  // ---- the run as written, with the numbers web3 returns ----

  /** A JavaScript numeric value: a Number or a BigInt. */
  datatype JsNumeric = JsNumber(n: int) | JsBigInt(n: int)

  /** How the web3 client returns block numbers and timestamps; version 4 defaults to BigInt. */
  datatype ReturnFormat = AsNumber | AsBigInt

  function Returned(f: ReturnFormat, n: nat): (v: JsNumeric)
    ensures v.n == n
    ensures v.JsBigInt? <==> f == AsBigInt
  {
    if f == AsBigInt then JsBigInt(n) else JsNumber(n)
  }

  const BigIntToNumber := "Cannot convert a BigInt value to a number"
  const MixedBigInt := "Cannot mix BigInt and other types, use explicit conversions"

  /** `Math.min(a, b)`: both operands are converted to Number, which throws on a BigInt. */
  function MathMin(a: JsNumeric, b: JsNumeric): (r: Result<int>)
    ensures r.Ok? <==> a.JsNumber? && b.JsNumber?
    ensures r.Ok? ==> r.value <= a.n && r.value <= b.n && (r.value == a.n || r.value == b.n)
    ensures r.Err? ==> r.message == BigIntToNumber
  {
    if a.JsBigInt? || b.JsBigInt? then Err(BigIntToNumber)
    else Ok(if a.n <= b.n then a.n else b.n)
  }

  /** `a * k` for a Number literal `k`: a BigInt operand throws. */
  function Times(a: JsNumeric, k: int): (r: Result<int>)
    ensures r.Ok? <==> a.JsNumber?
    ensures r.Ok? ==> r.value == a.n * k
    ensures r.Err? ==> r.message == MixedBigInt
  {
    if a.JsBigInt? then Err(MixedBigInt) else Ok(a.n * k)
  }

  /**
   * `crawlTransactions` as written: `headFormat` is how `getBlockNumber`
   * returns the head and `stampFormat` how `getBlock` returns a timestamp.
   * `Math.min` on a BigInt head throws before any fetch, and `timestamp * 1000`
   * on a BigInt throws before the first write; either error is swallowed.
   * With both as Numbers the run is `CrawlTransactions`.
   */
  function CrawlTransactionsAsWritten(s: State, c: Snapshot, fault: Option<nat>,
                                      headFormat: ReturnFormat, stampFormat: ReturnFormat): (r: State)
    ensures headFormat == AsBigInt ==> r == s
    ensures (stampFormat == AsBigInt && |EventsInRange(c, s.cursor + 1, NextWindow(s.cursor, c.head).hi)| > 0)
            ==> r == s
    ensures headFormat == AsNumber && stampFormat == AsNumber ==> r == CrawlTransactions(s, c, fault)
  {
    if fault == Some(0) then
      WrittenPrefix(CrawlCalls(c, NextWindow(s.cursor, c.head)), 0);
      s
    else
      match MathMin(JsNumber(s.cursor + 1 + BatchSize - 1), Returned(headFormat, c.head))
      case Err(_) => s
      case Ok(hi) =>
        var evs := EventsInRange(c, s.cursor + 1, hi);
        if |evs| > 0 && Times(Returned(stampFormat, c.timestamp(c.tx(evs[0].txHash).blockNumber)), 1000).Err? then s
        else CrawlTransactions(s, c, fault)
  }

  /**
   * With web3's default BigInt returns, no run ever moves the cursor or
   * writes a document, however many runs are made.
   */
  lemma {:induction false} AsWrittenNeverMoves(s: State, c: Snapshot, faults: seq<Option<nat>>)
    ensures RunsAsWritten(s, c, faults) == s
    decreases |faults|
  {
    if |faults| > 0 {
      AsWrittenNeverMoves(s, c, faults[1..]);
    }
  }

  /** Consecutive as-written runs over the same chain, one fault point per run. */
  function RunsAsWritten(s: State, c: Snapshot, faults: seq<Option<nat>>): State
    decreases |faults|
  {
    if |faults| == 0 then s
    else RunsAsWritten(CrawlTransactionsAsWritten(s, c, faults[0], AsBigInt, AsBigInt), c, faults[1..])
  }

  lemma {:induction false} WrittenAppend(a: seq<Call>, b: seq<Call>)
    ensures Written(a + b) == Written(a) + Written(b)
    decreases |a|
  {
    if |a| == 0 {
      assert a + b == b;
    } else {
      assert (a + b)[0] == a[0];
      assert (a + b)[1..] == a[1..] + b;
      WrittenAppend(a[1..], b);
    }
  }

  lemma WrittenPrefix(calls: seq<Call>, k: nat)
    requires k <= |calls|
    ensures IsPrefix(Written(calls[..k]), Written(calls))
  {
    assert calls == calls[..k] + calls[k..];
    WrittenAppend(calls[..k], calls[k..]);
  }

  lemma {:induction false} WrittenOfEventCalls(c: Snapshot, evs: seq<Event>)
    ensures Written(EventCalls(c, evs)) == Documents(c, evs)
    decreases |evs|
  {
    if |evs| > 0 {
      var head := [GetTransaction(evs[0].txHash), GetBlock(c.tx(evs[0].txHash).blockNumber), Write(Document(c, evs[0]))];
      WrittenOfEventCalls(c, evs[1..]);
      WrittenAppend(head, EventCalls(c, evs[1..]));
      assert Written(head) == [Document(c, evs[0])] by {
        assert head[3..] == [];
        assert Written(head[2..]) == [Document(c, evs[0])] + Written(head[3..]);
        assert Written(head[1..]) == Written(head[2..]) by {
          assert head[1..][1..] == head[2..];
        }
        assert Written(head) == Written(head[1..]);
      }
      assert Documents(c, evs) == [Document(c, evs[0])] + Documents(c, evs[1..]);
    }
  }

  lemma WrittenOfCrawl(c: Snapshot, w: Window)
    ensures Written(CrawlCalls(c, w)) == Documents(c, EventsInRange(c, w.lo, w.hi))
  {
    WrittenOfEventCalls(c, EventsInRange(c, w.lo, w.hi));
    WrittenAppend([GetBlockNumber, GetPastEvents(w.lo, w.hi)], EventCalls(c, EventsInRange(c, w.lo, w.hi)));
  }

  /** Upserting keeps every document under its own hash. */
  lemma {:induction false} UpsertAllWellKeyed(m: Store, ds: seq<StoredTx>)
    requires WellKeyed(m)
    ensures WellKeyed(UpsertAll(m, ds))
    decreases |ds|
  {
    if |ds| > 0 {
      UpsertAllWellKeyed(Upsert(m, ds[0]), ds[1..]);
    }
  }

  /** Upserting `ds` adds exactly the hashes of `ds` as keys. */
  lemma {:induction false} UpsertAllKeys(m: Store, ds: seq<StoredTx>)
    ensures UpsertAll(m, ds).Keys == m.Keys + Hashes(ds)
    decreases |ds|
  {
    if |ds| > 0 {
      UpsertAllKeys(Upsert(m, ds[0]), ds[1..]);
      assert Hashes(ds) == {ds[0].transactionHash} + Hashes(ds[1..]) by {
        assert ds == [ds[0]] + ds[1..];
      }
    }
  }

  /** Upserting `ds` leaves every hash outside `ds` as it was. */
  lemma {:induction false} UpsertAllFrame(m: Store, ds: seq<StoredTx>, h: string)
    requires h !in Hashes(ds)
    ensures AgreeAt(UpsertAll(m, ds), m, h)
    decreases |ds|
  {
    if |ds| > 0 {
      assert h !in Hashes(ds[1..]) by {
        forall d | d in ds[1..] ensures d.transactionHash != h {
          assert d in ds;
        }
      }
      UpsertAllFrame(Upsert(m, ds[0]), ds[1..], h);
    }
  }

  /** The last write for a hash wins: after `ds + [d]`, `d` is the document under its hash. */
  lemma LastWriteWins(m: Store, ds: seq<StoredTx>, d: StoredTx)
    ensures d.transactionHash in UpsertAll(m, ds + [d]) && UpsertAll(m, ds + [d])[d.transactionHash] == d
  {
    UpsertAllAppend(m, ds, [d]);
    assert UpsertAll(UpsertAll(m, ds), [d]) == Upsert(UpsertAll(m, ds), d);
  }

  lemma {:induction false} UpsertAllAppend(m: Store, a: seq<StoredTx>, b: seq<StoredTx>)
    ensures UpsertAll(m, a + b) == UpsertAll(UpsertAll(m, a), b)
    decreases |a|
  {
    if |a| == 0 {
      assert a + b == b;
    } else {
      assert (a + b)[0] == a[0];
      assert (a + b)[1..] == a[1..] + b;
      UpsertAllAppend(Upsert(m, a[0]), a[1..], b);
    }
  }

  /** The result of upserting `ds` depends on the starting store only at hashes outside `ds`. */
  lemma {:induction false} UpsertAllAbsorbs(m1: Store, m2: Store, ds: seq<StoredTx>)
    requires forall h :: h !in Hashes(ds) ==> AgreeAt(m1, m2, h)
    ensures UpsertAll(m1, ds) == UpsertAll(m2, ds)
    decreases |ds|
  {
    if |ds| == 0 {
      assert Hashes(ds) == {};
      assert forall h :: h in m1 <==> h in m2 by {
        forall h ensures h in m1 <==> h in m2 {
          assert AgreeAt(m1, m2, h);
        }
      }
      assert forall h :: h in m1 ==> m1[h] == m2[h] by {
        forall h | h in m1 ensures m1[h] == m2[h] {
          assert AgreeAt(m1, m2, h);
        }
      }
    } else {
      var n1 := Upsert(m1, ds[0]);
      var n2 := Upsert(m2, ds[0]);
      forall h | h !in Hashes(ds[1..]) ensures AgreeAt(n1, n2, h) {
        if h != ds[0].transactionHash {
          assert h !in Hashes(ds) by {
            forall d | d in ds ensures d.transactionHash != h {
              if d != ds[0] {
                assert d in ds[1..] by {
                  assert ds == [ds[0]] + ds[1..];
                }
              }
            }
          }
          assert AgreeAt(m1, m2, h);
        }
      }
      UpsertAllAbsorbs(n1, n2, ds[1..]);
    }
  }

  /** Replaying a prefix of the writes before all of them changes nothing. */
  lemma PrefixReplayAbsorbed(m: Store, p: seq<StoredTx>, ds: seq<StoredTx>)
    requires IsPrefix(p, ds)
    ensures UpsertAll(UpsertAll(m, p), ds) == UpsertAll(m, ds)
  {
    forall h | h !in Hashes(ds) ensures AgreeAt(UpsertAll(m, p), m, h) {
      assert h !in Hashes(p) by {
        forall d | d in p ensures d in ds {
          var i :| 0 <= i < |p| && p[i] == d;
          assert ds[i] == d;
        }
      }
      UpsertAllFrame(m, p, h);
    }
    UpsertAllAbsorbs(UpsertAll(m, p), m, ds);
  }

  /** Upserting the same documents twice is the same as upserting them once. */
  lemma UpsertAllIdempotent(m: Store, ds: seq<StoredTx>)
    ensures UpsertAll(UpsertAll(m, ds), ds) == UpsertAll(m, ds)
  {
    PrefixReplayAbsorbed(m, ds, ds);
  }

  /** A window is at most 1000 blocks, never past the head, and starts right after the cursor. */
  lemma WindowBounds(cursor: nat, head: nat)
    ensures var w := NextWindow(cursor, head);
      w.lo == cursor + 1 && w.hi <= head && w.hi - w.lo + 1 <= BatchSize
      && (head >= cursor + BatchSize ==> w.hi - w.lo + 1 == BatchSize)
  {
  }

  /** A completed run advances the cursor by at most 1000 and, if the head is not behind, never lowers it. */
  lemma CursorAdvance(s: State, c: Snapshot, fault: Option<nat>)
    ensures CrawlTransactions(s, c, fault).cursor <= s.cursor + BatchSize
    ensures c.head >= s.cursor ==> CrawlTransactions(s, c, fault).cursor >= s.cursor
    ensures s.cursor <= c.head ==> CrawlTransactions(s, c, fault).cursor <= c.head
  {
  }

  /**
   * A run that fails part-way, followed by a successful retry over the same
   * snapshot, leaves the same cursor and store as one clean run.
   */
  lemma RetryEqualsCleanRun(s: State, c: Snapshot, k: nat)
    requires k < |CrawlCalls(c, NextWindow(s.cursor, c.head))|
    ensures var failed := CrawlTransactions(s, c, Some(k));
      CrawlTransactions(failed, c, None) == CrawlTransactions(s, c, None)
  {
    var w := NextWindow(s.cursor, c.head);
    var ds := Documents(c, EventsInRange(c, w.lo, w.hi));
    var failed := CrawlTransactions(s, c, Some(k));
    var p :| IsPrefix(p, ds) && failed.store == UpsertAll(s.store, p);
    PrefixReplayAbsorbed(s.store, p, ds);
  }

  /** Running keeps the store well keyed: one document per hash, stored under that hash. */
  lemma CrawlKeepsWellKeyed(s: State, c: Snapshot, fault: Option<nat>)
    requires WellKeyed(s.store)
    ensures WellKeyed(CrawlTransactions(s, c, fault).store)
  {
    var w := NextWindow(s.cursor, c.head);
    var ds := Documents(c, EventsInRange(c, w.lo, w.hi));
    if Completes(CrawlCalls(c, w), fault) {
      UpsertAllWellKeyed(s.store, ds);
    } else {
      var r := CrawlTransactions(s, c, fault);
      var p :| IsPrefix(p, ds) && r.store == UpsertAll(s.store, p);
      UpsertAllWellKeyed(s.store, p);
    }
  }
}
